=== FILE: README.md ===
# RomRaider table and scale resolution, modelled in Dafny

RomRaider reads ECU ROM definitions from XML documents. Its
`TableScaleUnmarshaller` turns the `table` and `scaling` elements of such a
document into table objects. This project models that class as pure
functions over an immutable element tree. The class's mutable state is
threaded through the calls as a value. That state is the name/address map
of the pre-scan, the scale registry, and the optional memory-model byte
order.

The model covers five operations:

- the pre-scan (`filterFoundRomTables`), which records a name and an address for each table;
- the loading of root-level base scalings (`unmarshallBaseScales`);
- scale resolution (`unmarshallScale`). A scaling inherits from the last registered scale with its `base` name, lays its own attributes on top, and is deduplicated against the registry;
- table resolution (`unmarshallTable`). It covers:
  - omission;
  - base-table inheritance;
  - the materialisation gate, which builds a new table only if its name was pre-scanned or its type text contains `xis`;
  - the case-insensitive dispatch on `type`;
  - the attribute overlay, including the memory-model byte-order override and the pre-scan's address override;
  - the walk over child elements. The walk resolves axis sub-tables, forces their size to the parent's, attaches scalings, adds static data cells to linear tables, and records switch states and bits;
- `setMemModelEndian`.

Modules:

- `Common`: `Option`, ASCII case folding, a substring test, and decimal and hexadecimal text.
- `Dom`: the element tree, attribute lookup with defaults, and the external string parsers. The parsers are passed in as a `Parsers` record.
- `Scales`: the `Scale` record, scale resolution and base-scale loading.
- `Tables`: the table variants and the table operations the resolver calls: `getScale`, `addScale`, `setValues`, and the constructors.
- `PreScan`: `filterFoundRomTables`.
- `Resolver`: `unmarshallTable`, `setMemModelEndian`, and a worked example.

Where the documented behaviour and the code differ, the model follows the code. The two exceptions are the defects listed under "## Findings": table resolution uses the corrected address reading, and base scalings are registered once. The as-written versions are modelled alongside. Points where the model follows the code:

- **Scaling max and min are not inherited.** A scaling that names a base scaling gets the base's unit, expression, byte expression and increments. Its `max` and `min`, however, fall back to 0 rather than to the base's values. `Scales.BaseScalingResetsLimits` and `Resolver.AfrTargetExample` show this on the AFR example.
- **The built table carries the raw scale too.** A newly built table ends up with both the raw identity scale and the attached one.

## Model

| member | source | states |
|---|---|---|
| Common.ContainsIffOccurs | src/main/java/com/romraider/xml/TableScaleUnmarshaller.java:111 | The substring test behind the `xis` gate holds exactly when the text occurs at some position. |
| Common.DecimalRoundTrip | src/main/java/com/romraider/xml/TableScaleUnmarshaller.java:165-169 | The decimal text `String.valueOf` gives for an integer reads back as that integer. |
| Resolver.UnstatedEndianKept | src/main/java/com/romraider/xml/TableScaleUnmarshaller.java:170-173 | Without an `endian` attribute or a memory-model byte order, and with a parser that reads a byte order's text back, the overlay keeps the table's byte order. |
| Resolver.UnstatedStorageTypeKept | src/main/java/com/romraider/xml/TableScaleUnmarshaller.java:167-169 | Without a `storagetype` attribute, and with a parser that reads decimal text, the overlay keeps the table's storage type. |
| Scales.LastNamedIsLast | src/main/java/com/romraider/xml/TableScaleUnmarshaller.java:360-378 | The base search yields the LAST registry scale whose name equals the base ignoring case. If there is none, it yields the seed. |
| Scales.ApplyScaleAttrsIdempotent | src/main/java/com/romraider/xml/TableScaleUnmarshaller.java:380-400 | Applying a scaling node's attributes a second time changes nothing. |
| Scales.ResolveScale | src/main/java/com/romraider/xml/TableScaleUnmarshaller.java:357-408 | The resolved scale is always in the registry afterwards. The registry is unchanged exactly when an equal scale was already there; otherwise the scale is appended. A duplicate-free registry stays duplicate-free. |
| Scales.ResolveScaleIdempotent | src/main/java/com/romraider/xml/TableScaleUnmarshaller.java:401-407 | Resolving the same node with the same seed again gives the same scale and leaves the registry unchanged. |
| Scales.ScaleFixedFields | src/main/java/com/romraider/xml/TableScaleUnmarshaller.java:381-389 | Name, format, max and min depend only on the node, whatever the seed or registry: defaults "Default", "#", 0 and 0. |
| Scales.ScaleInheritsFromLastBase | src/main/java/com/romraider/xml/TableScaleUnmarshaller.java:360-400 | With a matched base, unit, expression, byte expression and increments the node leaves unstated come from the last matching registry scale. |
| Scales.UnresolvedBaseKeepsSeed | src/main/java/com/romraider/xml/TableScaleUnmarshaller.java:360-378 | A base of "none", or one that no registered scale matches, leaves the seed as the starting point. |
| Scales.BaseScalingResetsLimits | src/main/java/com/romraider/xml/TableScaleUnmarshaller.java:382-389 | A scaling based on "AFR" (max 20, min 7) inherits unit and expression, but its max and min are 0. |
| Scales.LoadBaseScales | src/main/java/com/romraider/xml/TableScaleUnmarshaller.java:64-76 | Loading base scalings as written only appends to the registry, at most two entries per child. Every `scalingbase` child has a registry entry carrying all the attributes it states afterwards; one with base "none" has exactly its scale there. Every registry entry was there before or is the scale some `scalingbase` child describes. |
| Scales.NewBaseScaleListedTwice | src/main/java/com/romraider/xml/TableScaleUnmarshaller.java:73 | As written, a new base scaling ends up in the registry twice, so the registry is no longer duplicate-free. |
| Scales.LoadBaseScalesOnce | src/main/java/com/romraider/xml/TableScaleUnmarshaller.java:64-76 | Loading each base scaling once only appends, at most one entry per child, and keeps the registry duplicate-free. Every `scalingbase` child has a registry entry carrying all the attributes it states afterwards; one with base "none" has exactly its scale there. Every registry entry was there before or is the scale some `scalingbase` child describes. |
| Scales.LoadersAgreeOnMembers | src/main/java/com/romraider/xml/TableScaleUnmarshaller.java:64-76 | When no base scaling names a base, both loaders register exactly the same scales; they differ only in repetitions. |
| Tables.Fresh | src/main/java/com/romraider/xml/TableScaleUnmarshaller.java:112-133 | Each constructor builds a table of the requested kind with no scales attached. |
| Tables.FirstNamed | src/main/java/com/romraider/xml/TableScaleUnmarshaller.java:286 | The scale lookup by name finds the first attached scale named like the key, and none before it matches. If it finds nothing, no attached scale matches. |
| Tables.AddScale | src/main/java/com/romraider/xml/TableScaleUnmarshaller.java:287 | Attaching a scale keeps every other field. The attached scales are then the new one plus the old ones not named like it. |
| Tables.AddThenGetScale | src/main/java/com/romraider/xml/TableScaleUnmarshaller.java:286-287 | Attaching keeps scale names distinct, and looking the name up afterwards returns the attached scale. |
| PreScan.Record | src/main/java/com/romraider/xml/TableScaleUnmarshaller.java:345-352 | A negative address records nothing. An entry at address 1 or above is never overwritten. Otherwise the name is set to the address. |
| PreScan.FilterFoundRomTables | src/main/java/com/romraider/xml/TableScaleUnmarshaller.java:327-355 | The scan never removes a name, never changes an entry at address 1 or above, and never introduces a negative address. |
| PreScan.ScanLength | src/main/java/com/romraider/xml/TableScaleUnmarshaller.java:340-343 | The scanned prefix reaches exactly up to the first omitted table. |
| PreScan.OmitStopsScan | src/main/java/com/romraider/xml/TableScaleUnmarshaller.java:340-343 | Siblings from an omitted table on have no effect on the map. |
| PreScan.ScannedNames | src/main/java/com/romraider/xml/TableScaleUnmarshaller.java:327-355 | A name is in the map after the scan exactly when it was before, or when a scanned table with that name has a non-negative address. Its value is the old one or such a table's address. |
| Resolver.ConstructBySpelling | src/main/java/com/romraider/xml/TableScaleUnmarshaller.java:112-141 | Each accepted spelling of a kind, in any case, builds that kind. No table is built exactly when no kind accepts the spelling; "none" is one such spelling. |
| Resolver.Materialise | src/main/java/com/romraider/xml/TableScaleUnmarshaller.java:105-147 | A seed table passes through unchanged. A closed gate yields no table. A new table carries exactly the raw scale. A "none" type is the unspecified-type error. |
| Resolver.DispatchRejects | src/main/java/com/romraider/xml/TableScaleUnmarshaller.java:134-141 | With the gate open and nothing inherited, a "none" type and an unknown type are the two parse errors, and the registry is untouched. |
| Resolver.DispatchBuilds | src/main/java/com/romraider/xml/TableScaleUnmarshaller.java:112-133 | With the gate open and nothing inherited, a type spelled as kind k that resolves yields a table of kind k. |
| Resolver.AxisGateIsCaseSensitive | src/main/java/com/romraider/xml/TableScaleUnmarshaller.java:111 | An un-prescanned table of type "X AXIS" is not built, although the dispatch would accept that spelling. |
| Resolver.ResolvedAddress | src/main/java/com/romraider/xml/TableScaleUnmarshaller.java:179-187 | The pre-scan's address wins. Otherwise a declared address is read as hex. Otherwise the current address is kept. |
| Resolver.AddressAsWritten | src/main/java/com/romraider/xml/TableScaleUnmarshaller.java:179-187 | As written, an undeclared address is the hex reading of the current address's decimal text. |
| Resolver.InheritedAddressReadAsHex | src/main/java/com/romraider/xml/TableScaleUnmarshaller.java:183-186 | As written, an inherited address of 16 becomes 22. The corrected reading keeps 16. |
| Resolver.AddressReadingsAgreeWhenStated | src/main/java/com/romraider/xml/TableScaleUnmarshaller.java:179-187 | The two readings agree whenever the pre-scan or the node states the address. |
| Resolver.Overlay | src/main/java/com/romraider/xml/TableScaleUnmarshaller.java:149-215 | The overlay keeps every header field the node does not mention, except that an unstated byte order is re-read from its own text through the byte-order parser (`Resolver.UnstatedEndianKept`) and an unstated storage type from its decimal text (`Resolver.UnstatedStorageTypeKept`), and it leaves kind, scales, values and axes alone. Every attribute the node states is taken: name, category, description, user level, lock, log parameter, mask, layout, and for 3D tables swap, flips and sizes. It applies the address and memory-model rules. `beforeram` only ever switches on. The sign is re-read only while the storage type is below 1. `sizey` wins over `sizex` and `flipy` over `flipx`. An absent layout and mask reset to "" and "0". The result is settled: the pre-scan's address and any forced byte order hold. |
| Resolver.OverlayIdentity | src/main/java/com/romraider/xml/TableScaleUnmarshaller.java:150-187 | Name, category, flags, storage encoding, byte order and address follow their rules. The layout is the stated one or "". No other field changes. |
| Resolver.OverlayLayout | src/main/java/com/romraider/xml/TableScaleUnmarshaller.java:189-202 | Description, user level, lock, log parameter and mask are the stated value or the current one (the mask: "0"). Size and flip take `sizey`/`flipy` over `sizex`/`flipx`. No other field changes. |
| Resolver.OverlayDims | src/main/java/com/romraider/xml/TableScaleUnmarshaller.java:204-215 | Only 3D tables change: each of swap, x and y flip, and x and y size becomes the stated value, or is kept when unstated. |
| Resolver.Install | src/main/java/com/romraider/xml/TableScaleUnmarshaller.java:241 | Installing an axis puts exactly that axis in the slot and leaves the other slots' axes and the header alone. A correctly sized axis fits its slot. |
| Resolver.FitAxis | src/main/java/com/romraider/xml/TableScaleUnmarshaller.java:236-277 | A resolved linear axis is installed with its size replaced by the parent's size for the slot, and the child's registry is kept. A missing axis and a non-linear one are the two faults. Omission and parse errors of the child propagate. |
| Resolver.AxisStep | src/main/java/com/romraider/xml/TableScaleUnmarshaller.java:224-281 | A table child feeding a slot gives exactly the result of resolving that child, seeded with the slot's current axis, and fitting it in. The slot is then fitted and its axis settled; other slots keep their fit. A child feeding no slot leaves the table and registry unchanged. The registry only grows and stays duplicate-free. |
| Resolver.FedSlot | src/main/java/com/romraider/xml/TableScaleUnmarshaller.java:226-276 | A table child feeds a slot exactly when the table is 2D and the child is an x or y axis (the single axis slot), or the table is 3D and the child's type names that axis. |
| Resolver.AxisInto | src/main/java/com/romraider/xml/TableScaleUnmarshaller.java:236-241 | Resolving the child from the slot's axis and fitting it in leaves the slot fitted, with a settled axis, and keeps every other slot. |
| Resolver.LocalStep | src/main/java/com/romraider/xml/TableScaleUnmarshaller.java:283-312 | The header and axes are untouched. A scaling attaches the scale resolved from the attached scale of that name, and the registry is the one that resolution returns. Data cells are appended to linear tables only. A description child replaces the description; a state sets the value named by `name` to `data`, a bit to `position`. Any other child changes nothing. |
| Resolver.Step | src/main/java/com/romraider/xml/TableScaleUnmarshaller.java:220-315 | A table child is handled as an axis, any other child locally. A child keeps the header and the fit and settledness of every slot, completes the slot it feeds, and only grows the registry. |
| Resolver.Walk | src/main/java/com/romraider/xml/TableScaleUnmarshaller.java:217-316 | Over all children: the header is kept; every slot some child feeds is fitted with a settled axis in the result; slots already fitted or settled stay so; the registry only grows and stays duplicate-free. |
| Resolver.Resolve | src/main/java/com/romraider/xml/TableScaleUnmarshaller.java:78-317 | An omitted node is `Omitted`. A closed gate yields no table. A seed table never turns into none. A built table has the pre-scan's address and the forced byte order. It takes every header attribute its node states: name, category, `beforeram`, layout, mask, sizes, flips, user level, lock, log parameter, storage type, the address unless the pre-scan knows the name, the byte order unless a memory model forces one, and for 3D tables swap, flips and sizes. A built table keeps the kind of the table it starts from (the `base` table, or else the seed, such as the parent's current axis) and, whenever the node does not restate them, its name, category, size, flip, user level, lock, log parameter, `beforeram`, and for 3D tables swap, flips and sizes. Its fed axes are fitted and settled. The registry only grows and stays duplicate-free. |
| Resolver.Build | src/main/java/com/romraider/xml/TableScaleUnmarshaller.java:149-316 | Overlaying and walking a materialised table keeps what the node leaves unstated, takes what it states, keeps the kind, and settles the table and its fed axes. |
| Resolver.BaseTableRetained | src/main/java/com/romraider/xml/TableScaleUnmarshaller.java:86-103 | A known base table's kind survives into the result. So do its name, category, size, flip, user level, lock, log parameter, `beforeram` and 3D swap, flips and sizes whenever the node does not restate them. Every header attribute the node states is taken, as for `Resolver.Resolve`. |
| Resolver.OmittedAxisOmitsParent | src/main/java/com/romraider/xml/TableScaleUnmarshaller.java:236-237 | An omitted axis child makes its parent omitted. |
| Resolver.SetMemModelEndian | src/main/java/com/romraider/xml/TableScaleUnmarshaller.java:60-62 | Sets the memory-model byte order and nothing else. |
| Resolver.MemoryModelForcesEndian | src/main/java/com/romraider/xml/TableScaleUnmarshaller.java:170-178 | Once a memory-model byte order is set, every built table uses it as both its byte order and its memory-model byte order. |
| Resolver.UnmarshallBaseScales | src/main/java/com/romraider/xml/TableScaleUnmarshaller.java:64-76 | Loading base scalings once grows the registry, keeps it duplicate-free, and changes nothing else. Every root `scalingbase` has a registry entry carrying all the attributes it states, one with base "none" exactly its scale, and every new entry is described by some root `scalingbase`. |
| Resolver.AfrTargetExample | src/main/java/com/romraider/xml/TableScaleUnmarshaller.java:78-317 | The AFR example resolves to a 3D table. It has the pre-scan's address 0x2000 and sizes 12 and 16, and carries the raw scale plus an "AFR" scale with the base's unit and expression and max and min of 0. |

## Left out

- User dialogs and logging (the `JOptionPane` and logger calls) are side effects on the user interface; they are not modelled.
- Base-table and base-scale cloning are value copies here. The clone cannot fail. In the code a `NullPointerException` while cloning the base table only shows a dialog, and resolution continues with the seed table unchanged; that path has no counterpart.
- `TableNotFoundException` and `InvalidTableNameException` from the ROM lookup are modelled as "the base is not in the ROM map", which leaves the seed unchanged.
- The Java `Scale` passed as a seed is mutated in place and may be aliased by the registry. The model copies values instead, so the registry entries never change after insertion. The most visible case is the shared raw scale: a `scaling` child named "Default", or with no name, gets the shared raw scale back from the lookup and mutates it, which changes the raw scale of every table built before or after; the model's `RawScale` stays the constant default scale. Likewise the Java seed table is updated in place, so a child that fails after the overlay leaves the caller's table partly updated, while the model returns no table.
- Floating-point attributes (`max`, `min`, increments) are modelled as mathematical reals.
- The attribute parsers (`RomAttributeParser` and the typed attribute reads) are parameters and total. Java exceptions on malformed numbers are not modelled.
- The constructors of `Table`, its subclasses and `Scale` are not part of this model. Their default field values are stand-ins, except the scale defaults the resolver states: name "Default", format "#", and max and min 0.
- `Table.getScale`, `Table.addScale` and `Table.setValues` are not part of this model. Lookup is taken to be the first match by name ignoring case, adding to replace same-named scales, a failed lookup to give a fresh default scale (so a `scaling` child with a name not yet attached starts from the defaults), and values to be appended in order.
- `DataCell` objects are modelled by their text only. The `tempTable.setData(...getData())` lines after installing an axis copy the axis's data onto itself and are omitted.
- Case-insensitive comparison folds ASCII letters only; Java's full Unicode case folding is not modelled.
- `Scale.equals` is not part of this model. The registry's duplicate test takes it to be equality of all scale fields.
- Resolver.Resolve: uses the corrected address reading from "## Findings", not the code as written.
- Resolver.Resolve: does not state the description (a `description` child may replace it) or the sign, which is re-read only while the storage type is below 1, or what becomes of the scales, values and cells beyond the fitted axes; `Resolver.LocalStep` states each child's effect.
- Resolver.BaseTableRetained: does not state that an unrestated address, storage type, byte order or description survives. The address goes through the pre-scan and the hex reading, the storage type through the storage-type parser (`Resolver.UnstatedStorageTypeKept` covers a decimal parser), the byte order through the byte-order parser (`Resolver.UnstatedEndianKept` covers one that reads its own text back), and a `description` child may replace the description. An absent layout and mask reset to "" and "0" rather than surviving.
- Resolver.Overlay: uses the corrected address reading from "## Findings"; `Resolver.AddressAsWritten` models the line as written.
- Resolver.OverlayIdentity: uses the corrected address reading from "## Findings".
- Resolver.Build: uses the corrected address reading from "## Findings".
- Resolver.UnmarshallBaseScales: registers each base scaling once, as in "## Findings"; `Scales.LoadBaseScales` models the double registration as written.
- Resolver.AfrTargetExample: is stated for the corrected model. Its table is pre-scanned and states its address, so both address readings agree there; its registry is loaded with single registration.
- Integer widths: addresses and sizes are unbounded integers. The 32-bit range of Java's `int` is not modelled.
- The logger, AEM plugin and J2534 sources are context only and are not part of this model.

## Findings

| source | as written | input that shows it | evidently intended | confidence | as-written member | corrected member |
|---|---|---|---|---|---|---|
| src/main/java/com/romraider/xml/TableScaleUnmarshaller.java:183-186 | When the node declares no `storageaddress` and the pre-scan does not know the name, the default is `String.valueOf(current address)`. That is decimal text, and it is then parsed by the hexadecimal parser. | An inherited table or axis with address 16 whose node restates no address: the result is 0x16 = 22. | An undeclared address keeps the current address. | medium, not executed; assumes `parseHexString` reads bare digits as hexadecimal | Resolver.AddressAsWritten, Resolver.InheritedAddressReadAsHex | Resolver.ResolvedAddress |
| src/main/java/com/romraider/xml/TableScaleUnmarshaller.java:73 | `unmarshallBaseScales` adds the result of `unmarshallScale` to the registry. `unmarshallScale` has already appended a new scale itself (line 406), so the scale is listed twice. | One `scalingbase` child with a fresh scale and an empty registry: the registry becomes [s, s]. | Each base scale is registered once, as `unmarshallScale` does for every other scale. | high, not executed | Scales.LoadBaseScales, Scales.NewBaseScaleListedTwice | Scales.LoadBaseScalesOnce |

=== FILE: common.dfy ===
/** Small shared vocabulary: an optional value, and the handful of Java
    string operations the definition resolver relies on (case-insensitive
    comparison, substring search, decimal and hexadecimal text). */
module Common {

  /** A value that may be absent; stands in for a Java reference that may be null. */
  datatype Option<+T> = None | Some(value: T)

  /** ASCII lower-casing of one character; every other character is unchanged. */
  function LowerChar(c: char): char
  {
    if 'A' <= c <= 'Z' then (c as int + 32) as char else c
  }

  function Lower(s: string): string
  {
    seq(|s|, i requires 0 <= i < |s| => LowerChar(s[i]))
  }

  /** Java's String.equalsIgnoreCase, with case folding restricted to ASCII letters. */
  predicate EqualsIgnoreCase(a: string, b: string)
  {
    Lower(a) == Lower(b)
  }

  /** Case-insensitive comparison is an equivalence that only relates strings of equal length. */
  lemma EqualsIgnoreCaseIsEquivalence(a: string, b: string, c: string)
    ensures EqualsIgnoreCase(a, a)
    ensures EqualsIgnoreCase(a, b) ==> EqualsIgnoreCase(b, a)
    ensures EqualsIgnoreCase(a, b) && EqualsIgnoreCase(b, c) ==> EqualsIgnoreCase(a, c)
    ensures EqualsIgnoreCase(a, b) ==> |a| == |b|
  {
    if EqualsIgnoreCase(a, b) {
      assert |Lower(a)| == |Lower(b)|;
    }
  }

  /** `sub` occurs in `s` starting at index `i`. */
  predicate OccursAt(s: string, sub: string, i: int)
  {
    0 <= i && i + |sub| <= |s| && s[i..i + |sub|] == sub
  }

  /** Java's String.contains: a case-sensitive substring search from the left. */
  function Contains(s: string, sub: string): bool
    decreases |s|
  {
    if |sub| > |s| then false
    else if s[..|sub|] == sub then true
    else Contains(s[1..], sub)
  }

  /** The scan agrees with the declarative reading "there is a position where `sub` occurs". */
  lemma {:induction false} ContainsIffOccurs(s: string, sub: string)
    ensures Contains(s, sub) <==> exists i :: OccursAt(s, sub, i)
    decreases |s|
  {
    if |sub| > |s| {
    } else if s[..|sub|] == sub {
      assert OccursAt(s, sub, 0);
    } else {
      ContainsIffOccurs(s[1..], sub);
      if Contains(s[1..], sub) {
        var j :| OccursAt(s[1..], sub, j);
        assert s[1..][j..j + |sub|] == s[j + 1..j + 1 + |sub|];
        assert OccursAt(s, sub, j + 1);
      }
      if exists i :: OccursAt(s, sub, i) {
        var i :| OccursAt(s, sub, i);
        assert i != 0;
        assert s[1..][i - 1..i - 1 + |sub|] == s[i..i + |sub|];
        assert OccursAt(s[1..], sub, i - 1);
      }
    }
  }

  function DigitChar(d: int): char
    requires 0 <= d < 10
  {
    ('0' as int + d) as char
  }

  /** Decimal digits of a natural number, most significant first. */
  function Digits(n: nat): (r: string)
    ensures |r| >= 1
    ensures forall i :: 0 <= i < |r| ==> '0' <= r[i] <= '9'
    decreases n
  {
    if n < 10 then [DigitChar(n)] else Digits(n / 10) + [DigitChar(n % 10)]
  }

  /** Java's String.valueOf(int): optional minus sign, then decimal digits. */
  function Decimal(n: int): string
  {
    if n < 0 then "-" + Digits(-n) else Digits(n)
  }

  /** Value of a string of decimal digits (Integer.parseInt on well-formed input). */
  function DigitsValue(s: string): int
    decreases |s|
  {
    if |s| == 0 then 0 else DigitsValue(s[..|s| - 1]) * 10 + (s[|s| - 1] as int - '0' as int)
  }

  /** Integer.parseInt for the strings Decimal produces. */
  function ParseDecimal(s: string): int
  {
    if |s| > 0 && s[0] == '-' then -DigitsValue(s[1..]) else DigitsValue(s)
  }

  lemma {:induction false} DigitsRoundTrip(n: nat)
    ensures DigitsValue(Digits(n)) == n
    decreases n
  {
    if n >= 10 {
      DigitsRoundTrip(n / 10);
      var d := Digits(n / 10) + [DigitChar(n % 10)];
      assert d[..|d| - 1] == Digits(n / 10);
    }
  }

  /** Reading back the decimal text of an integer gives the integer. */
  lemma DecimalRoundTrip(n: int)
    ensures ParseDecimal(Decimal(n)) == n
  {
    if n < 0 {
      DigitsRoundTrip(-n);
      assert ("-" + Digits(-n))[1..] == Digits(-n);
    } else {
      DigitsRoundTrip(n);
    }
  }

  /** Value of one hexadecimal digit; characters that are not hex digits count as 0. */
  function HexDigitValue(c: char): int
  {
    if '0' <= c <= '9' then c as int - '0' as int
    else if 'a' <= c <= 'f' then c as int - 'a' as int + 10
    else if 'A' <= c <= 'F' then c as int - 'A' as int + 10
    else 0
  }

  function HexDigitsValue(s: string): int
    decreases |s|
  {
    if |s| == 0 then 0 else HexDigitsValue(s[..|s| - 1]) * 16 + HexDigitValue(s[|s| - 1])
  }

  /** The conventional reading of an address string: `0x`-prefixed or bare
      hexadecimal digits, with an optional leading minus sign. Malformed
      digits count as 0 here, where the Java parser would throw. */
  function HexValue(s: string): int
  {
    if |s| > 2 && EqualsIgnoreCase(s[..2], "0x") then HexDigitsValue(s[2..])
    else if |s| > 0 && s[0] == '-' then -HexDigitsValue(s[1..])
    else HexDigitsValue(s)
  }
}

=== FILE: dom.dfy ===
/** The definition document as an immutable tree, and the collaborators the
    resolver reads it through: attribute lookup with a default, and the
    string parsers of the ROM attribute parser, which are not part of this
    model and are therefore passed in as a record of functions. */
module Dom {
  import opened Common

  /** A document node. Element nodes carry a tag name, attributes, text
      content and child nodes; every other kind of node (text, comment) has
      `isElement == false` and is skipped by every traversal. */
  datatype Node = Node(isElement: bool, tag: string, attrs: map<string, string>, text: string, children: seq<Node>)

  /** Byte order of stored table data. */
  datatype Endian = Big | Little

  /** The table kinds of the definition language (Table.TableType). */
  datatype TableType = Table1D | Table2D | Table3D | XAxis | YAxis | Switch | BitwiseSwitch

  /** The external string parsers: the ROM attribute parser's hexadecimal,
      storage-type, storage-sign, endianness and table-type readers, and the
      typed readers the DOM helper applies to int, boolean and double
      attributes. They are total here; a Java parser that throws on
      malformed text is outside the model. */
  datatype Parsers = Parsers(
    hex: string -> int,
    storageType: string -> int,
    dataSign: string -> bool,
    endian: string -> Endian,
    tableType: string -> TableType,
    integer: string -> int,
    boolean: string -> bool,
    decimal: string -> real)

  /** An element whose tag equals `tag`, ignoring case. */
  predicate IsElementNamed(n: Node, tag: string)
  {
    n.isElement && EqualsIgnoreCase(n.tag, tag)
  }

  /** The string value of attribute `key`, or `default` when the node does not carry it. */
  function Attr(n: Node, key: string, default: string): string
  {
    if key in n.attrs then n.attrs[key] else default
  }

  /** The attribute as the DOM hands it out by name: absent is null. */
  function NamedItem(n: Node, key: string): Option<string>
  {
    if key in n.attrs then Some(n.attrs[key]) else None
  }

  /** Typed reads: a present attribute is parsed, an absent one yields the default. */
  function AttrInt(p: Parsers, n: Node, key: string, default: int): int
  {
    if key in n.attrs then p.integer(n.attrs[key]) else default
  }

  function AttrBool(p: Parsers, n: Node, key: string, default: bool): bool
  {
    if key in n.attrs then p.boolean(n.attrs[key]) else default
  }

  function AttrReal(p: Parsers, n: Node, key: string, default: real): real
  {
    if key in n.attrs then p.decimal(n.attrs[key]) else default
  }

  /** Endian.getMarshallingString: the text an endianness is written as. */
  function MarshallingString(e: Endian): string
  {
    match e
    case Big => "big"
    case Little => "little"
  }

  /** An attribute that reads "true" in any letter case (the omit and beforeram flags). */
  predicate FlagSet(n: Node, key: string)
  {
    EqualsIgnoreCase(Attr(n, key, "false"), "true")
  }
}

=== FILE: prescan.dfy ===
/** The name/address pre-scan (TableScaleUnmarshaller.filterFoundRomTables):
    one flat pass over sibling nodes that records, for each `table` element,
    its name and hexadecimal storage address. The resulting map later
    decides which tables may be built and overrides their addresses. */
module PreScan {
  import opened Common
  import opened Dom

  predicate IsTableNode(n: Node)
  {
    IsElementNamed(n, "table")
  }

  function TableName(n: Node): string
  {
    Attr(n, "name", "unknown")
  }

  /** The declared address; an absent one reads as the sentinel -1. */
  function TableAddress(p: Parsers, n: Node): int
  {
    p.hex(Attr(n, "storageaddress", "-1"))
  }

  /** An omitted table ends the scan of its siblings. */
  predicate StopsScan(n: Node)
  {
    IsTableNode(n) && FlagSet(n, "omit")
  }

  /** The recording rule for one table: a new name needs a non-negative
      address; a known name is overwritten only while its stored address is
      below 1, and only by a non-negative one. */
  function Record(names: map<string, int>, name: string, address: int): (r: map<string, int>)
    ensures address < 0 ==> r == names
    ensures name in names && names[name] >= 1 ==> r == names
    ensures address >= 0 && (name !in names || names[name] < 1) ==> r == names[name := address]
  {
    if name !in names && address >= 0 then names[name := address]
    else if name in names && names[name] < 1 && address >= 0 then names[name := address]
    else names
  }

  /** filterFoundRomTables over a list of sibling nodes, continuing from an
      existing map (the map is a field of the unmarshaller and survives calls). */
  function FilterFoundRomTables(p: Parsers, nodes: seq<Node>, names: map<string, int>): (r: map<string, int>)
    ensures names.Keys <= r.Keys
    ensures forall k :: k in names && names[k] >= 1 ==> k in r && r[k] == names[k]
    ensures (forall k :: k in names ==> names[k] >= 0) ==> forall k :: k in r ==> r[k] >= 0
    decreases |nodes|
  {
    if |nodes| == 0 then names
    else if !IsTableNode(nodes[0]) then FilterFoundRomTables(p, nodes[1..], names)
    else if FlagSet(nodes[0], "omit") then names
    else FilterFoundRomTables(p, nodes[1..], Record(names, TableName(nodes[0]), TableAddress(p, nodes[0])))
  }

  /** How many leading siblings the scan looks at: up to the first omitted table. */
  function ScanLength(nodes: seq<Node>): (k: nat)
    ensures k <= |nodes|
    ensures forall j :: 0 <= j < k ==> !StopsScan(nodes[j])
    ensures k < |nodes| ==> StopsScan(nodes[k])
    decreases |nodes|
  {
    if |nodes| == 0 then 0
    else if StopsScan(nodes[0]) then 0
    else
      var k := ScanLength(nodes[1..]);
      assert forall j :: 0 <= j < k ==> nodes[1..][j] == nodes[j + 1];
      1 + k
  }

  /** Everything from an omitted table on is invisible to the scan. */
  lemma {:induction false} OmitStopsScan(p: Parsers, nodes: seq<Node>, names: map<string, int>, i: nat)
    requires i < |nodes| && StopsScan(nodes[i])
    ensures FilterFoundRomTables(p, nodes, names) == FilterFoundRomTables(p, nodes[..i], names)
    decreases i
  {
    if i == 0 {
      assert nodes[..0] == [];
    } else {
      assert nodes[..i][1..] == nodes[1..][..i - 1];
      assert nodes[..i][0] == nodes[0];
      if !StopsScan(nodes[0]) {
        var next := if IsTableNode(nodes[0]) then Record(names, TableName(nodes[0]), TableAddress(p, nodes[0])) else names;
        OmitStopsScan(p, nodes[1..], next, i - 1);
      }
    }
  }

  /** Node `n` is a table named `k` with a non-negative address. */
  predicate Inserts(p: Parsers, n: Node, k: string)
  {
    IsTableNode(n) && TableName(n) == k && TableAddress(p, n) >= 0
  }

  /** Exactly the names already known, and those of scanned tables with a
      non-negative address, end up in the map; each with either its old
      value or the address of one such table. */
  lemma {:induction false} ScannedNames(p: Parsers, nodes: seq<Node>, names: map<string, int>, k: string)
    ensures var r := FilterFoundRomTables(p, nodes, names);
            k in r <==> k in names || exists j :: 0 <= j < ScanLength(nodes) && Inserts(p, nodes[j], k)
    ensures var r := FilterFoundRomTables(p, nodes, names);
            k in r ==> (k in names && r[k] == names[k])
                       || exists j :: 0 <= j < ScanLength(nodes) && Inserts(p, nodes[j], k)
                                      && r[k] == TableAddress(p, nodes[j])
    decreases |nodes|
  {
    if |nodes| > 0 && !StopsScan(nodes[0]) {
      var next := if IsTableNode(nodes[0]) then Record(names, TableName(nodes[0]), TableAddress(p, nodes[0])) else names;
      ScannedNames(p, nodes[1..], next, k);
      var r := FilterFoundRomTables(p, nodes, names);
      assert r == FilterFoundRomTables(p, nodes[1..], next);
      var len := ScanLength(nodes[1..]);
      assert ScanLength(nodes) == len + 1;
      forall j | 0 <= j < len
        ensures nodes[1..][j] == nodes[j + 1]
      {
      }
      if exists j :: 0 <= j < len && Inserts(p, nodes[1..][j], k) {
        var j :| 0 <= j < len && Inserts(p, nodes[1..][j], k);
        assert Inserts(p, nodes[j + 1], k);
      }
      if exists j :: 0 <= j < ScanLength(nodes) && Inserts(p, nodes[j], k) {
        var j :| 0 <= j < ScanLength(nodes) && Inserts(p, nodes[j], k);
        if j > 0 {
          assert Inserts(p, nodes[1..][j - 1], k);
        }
      }
      if k in r && !(k in next && r[k] == next[k]) {
        var j :| 0 <= j < len && Inserts(p, nodes[1..][j], k) && r[k] == TableAddress(p, nodes[1..][j]);
        assert Inserts(p, nodes[j + 1], k) && r[k] == TableAddress(p, nodes[j + 1]);
      }
      if k in r && k in next && r[k] == next[k] && !(k in names && r[k] == names[k]) {
        assert Inserts(p, nodes[0], k) && r[k] == TableAddress(p, nodes[0]);
      }
    }
  }
}

=== FILE: resolver.dfy ===
/** Table resolution (TableScaleUnmarshaller.unmarshallTable): one recursive
    procedure over a definition node that handles omission, base-table
    inheritance, the materialisation gate, dispatch on the `type` attribute,
    the scalar attribute overlay (with the model-wide endianness override and
    the pre-scan's address override), and the walk over child nodes, which
    resolves axis sub-tables and forces their size to the parent's. The
    scale registry is threaded through the calls explicitly. */
module Resolver {
  import opened Common
  import opened Dom
  import opened Scales
  import opened Tables

  /** The unmarshaller's state: the pre-scan's name/address map, the scale
      registry, and the model-wide endianness (None when the ROM declares none). */
  datatype Unmarshaller = Unmarshaller(tableNames: map<string, int>, scales: seq<Scale>, memModelEndian: Option<string>)

  /** The raw identity scale every newly built table is given. */
  const RawScale := NewScale

  /** How resolving one table node ends. `Omitted` asks the caller to drop
      the table; `Unspecified` and `UnknownType` are the two parse errors,
      carrying the node's `name` attribute as the DOM hands it out;
      `Fault` is a runtime failure while installing an axis (a resolved axis
      that is missing or not a linear table); `Resolved` carries the table,
      which stays absent when the gate declines to build one. */
  datatype Outcome =
    | Omitted
    | Unspecified(name: Option<string>)
    | UnknownType(typ: string, name: Option<string>)
    | Fault(reason: string)
    | Resolved(table: Option<Table>)

  /** An outcome together with the scale registry after it. */
  datatype Resolution = Resolution(outcome: Outcome, scales: seq<Scale>)

  /** Resolution succeeded with a table. */
  predicate Built(r: Resolution)
  {
    r.outcome.Resolved? && r.outcome.table.Some?
  }

  /** Base-table inheritance: a `base` other than "none" that names a table
      of the ROM replaces the seed by (a copy of) that table; a name the ROM
      does not know leaves the seed as it is. */
  function Inherit(rom: map<string, Table>, n: Node, table: Option<Table>): Option<Table>
  {
    var base := Attr(n, "base", "none");
    if !EqualsIgnoreCase(base, "none") && base in rom then Some(rom[base]) else table
  }

  /** The materialisation gate: a new table may only be built for a name the
      pre-scan recorded, or for a type containing "xis" (the axis types). */
  predicate Gate(u: Unmarshaller, n: Node)
  {
    Attr(n, "name", "unknown") in u.tableNames || Contains(Attr(n, "type", "none"), "xis")
  }

  /** The spellings the `type` attribute accepts for each kind, in any letter case. */
  function Spellings(k: TableType): seq<string>
  {
    match k
    case Table3D => ["3D"]
    case Table2D => ["2D"]
    case Table1D => ["1D"]
    case XAxis => ["X Axis", "Static X Axis"]
    case YAxis => ["Y Axis", "Static Y Axis"]
    case Switch => ["Switch"]
    case BitwiseSwitch => ["BitwiseSwitch"]
  }

  predicate Spells(typ: string, k: TableType)
  {
    exists i :: 0 <= i < |Spellings(k)| && EqualsIgnoreCase(typ, Spellings(k)[i])
  }

  /** The dispatch on the `type` attribute: a fresh table of the named kind. */
  function Construct(typ: string): Option<Table>
  {
    if EqualsIgnoreCase(typ, "3D") then Some(Fresh(Table3D))
    else if EqualsIgnoreCase(typ, "2D") then Some(Fresh(Table2D))
    else if EqualsIgnoreCase(typ, "1D") then Some(Fresh(Table1D))
    else if EqualsIgnoreCase(typ, "X Axis") || EqualsIgnoreCase(typ, "Static X Axis") then Some(Fresh(XAxis))
    else if EqualsIgnoreCase(typ, "Y Axis") || EqualsIgnoreCase(typ, "Static Y Axis") then Some(Fresh(YAxis))
    else if EqualsIgnoreCase(typ, "Switch") then Some(Fresh(Switch))
    else if EqualsIgnoreCase(typ, "BitwiseSwitch") then Some(Fresh(BitwiseSwitch))
    else None
  }

  /** Dispatch agrees with the table of spellings: a type spelled as kind `k`
      builds a `k`, and a type no kind spells builds nothing. */
  lemma ConstructBySpelling(typ: string)
    ensures forall k :: Spells(typ, k) ==> Construct(typ) == Some(Fresh(k))
    ensures Construct(typ).None? <==> forall k :: !Spells(typ, k)
    ensures EqualsIgnoreCase(typ, "none") ==> Construct(typ).None?
  {
    forall k | Spells(typ, k)
      ensures Construct(typ) == Some(Fresh(k))
    {
      ConstructSpelled(typ, k);
    }
    if Construct(typ).Some? {
      SpelledByConstruct(typ);
    }
    LowerSpellings();
  }

  lemma ConstructSpelled(typ: string, k: TableType)
    requires Spells(typ, k)
    ensures Construct(typ) == Some(Fresh(k))
  {
    LowerSpellings();
    var i :| 0 <= i < |Spellings(k)| && EqualsIgnoreCase(typ, Spellings(k)[i]);
    assert Lower(typ) == Lower(Spellings(k)[i]);
  }

  lemma SpelledByConstruct(typ: string)
    requires Construct(typ).Some?
    ensures exists k :: Spells(typ, k)
  {
    LowerSpellings();
    var L := Lower(typ);
    if L == "3d" { assert Spells(typ, Table3D) by { assert Spellings(Table3D)[0] == "3D"; } }
    else if L == "2d" { assert Spells(typ, Table2D) by { assert Spellings(Table2D)[0] == "2D"; } }
    else if L == "1d" { assert Spells(typ, Table1D) by { assert Spellings(Table1D)[0] == "1D"; } }
    else if L == "x axis" { assert Spells(typ, XAxis) by { assert Spellings(XAxis)[0] == "X Axis"; } }
    else if L == "static x axis" { assert Spells(typ, XAxis) by { assert Spellings(XAxis)[1] == "Static X Axis"; } }
    else if L == "y axis" { assert Spells(typ, YAxis) by { assert Spellings(YAxis)[0] == "Y Axis"; } }
    else if L == "static y axis" { assert Spells(typ, YAxis) by { assert Spellings(YAxis)[1] == "Static Y Axis"; } }
    else if L == "switch" { assert Spells(typ, Switch) by { assert Spellings(Switch)[0] == "Switch"; } }
    else { assert Spells(typ, BitwiseSwitch) by { assert Spellings(BitwiseSwitch)[0] == "BitwiseSwitch"; } }
  }

  /** The lower-case forms of the accepted spellings and of "none". */
  lemma LowerSpellings()
    ensures Lower("3D") == "3d" && Lower("2D") == "2d" && Lower("1D") == "1d"
    ensures Lower("X Axis") == "x axis" && Lower("Static X Axis") == "static x axis"
    ensures Lower("Y Axis") == "y axis" && Lower("Static Y Axis") == "static y axis"
    ensures Lower("Switch") == "switch" && Lower("BitwiseSwitch") == "bitwiseswitch"
    ensures Lower("none") == "none"
  {
  }

  /** Steps 1 to 3 for a node that is not omitted: what the table is before
      its attributes are laid over it. */
  function Materialise(u: Unmarshaller, n: Node, table: Option<Table>): (o: Outcome)
    ensures table.Some? ==> o == Resolved(table)
    ensures table.None? && !Gate(u, n) ==> o == Resolved(None)
    ensures table.None? && o.Resolved? && o.table.Some? ==> o.table.value.scales == [RawScale]
    ensures table.None? && Gate(u, n) && EqualsIgnoreCase(Attr(n, "type", "none"), "none")
            ==> o == Unspecified(NamedItem(n, "name"))
  {
    if table.Some? then Resolved(table)
    else
      var typ := Attr(n, "type", "none");
      if Gate(u, n) then
        match Construct(typ)
        case Some(t) => Resolved(Some(t.(scales := t.scales + [RawScale])))
        case None =>
          if EqualsIgnoreCase(typ, "none") then Unspecified(NamedItem(n, "name"))
          else UnknownType(typ, NamedItem(n, "name"))
      else Resolved(None)
  }

  /** The endianness a model-wide declaration forces: little if it reads
      "little" in any case, big otherwise. */
  function ModelEndian(s: string): Endian
  {
    if EqualsIgnoreCase(s, "little") then Little else Big
  }

  /** The storage address a table ends up with: the pre-scan's address when
      the name is recorded there, else the node's declared address, else the
      current one. */
  function ResolvedAddress(p: Parsers, names: map<string, int>, n: Node, tn: string, current: int): (a: int)
    ensures tn in names ==> a == names[tn]
    ensures tn !in names && "storageaddress" in n.attrs ==> a == p.hex(n.attrs["storageaddress"])
    ensures tn !in names && "storageaddress" !in n.attrs ==> a == current
  {
    if tn in names then names[tn]
    else if "storageaddress" in n.attrs then p.hex(n.attrs["storageaddress"])
    else current
  }

  /** The address step as the source writes it: an absent attribute falls
      back to the DECIMAL text of the current address, which is then read
      by the hexadecimal parser. */
  function AddressAsWritten(p: Parsers, names: map<string, int>, n: Node, tn: string, current: int): (a: int)
    ensures tn in names ==> a == names[tn]
    ensures tn !in names && "storageaddress" !in n.attrs ==> a == p.hex(Decimal(current))
  {
    if tn in names then names[tn] else p.hex(Attr(n, "storageaddress", Decimal(current)))
  }

  /** Parsers that read addresses the conventional way (0x-prefixed or bare
      hexadecimal) and integers as decimal; the rest are irrelevant here. */
  function ConventionalParsers(): Parsers
  {
    Parsers(HexValue, ParseDecimal, s => false, s => Big, s => Table1D, ParseDecimal, s => false, s => 0.0)
  }

  /** As written, an inherited address of 16 that neither the pre-scan nor
      the node restates comes back as 0x16 = 22. */
  lemma InheritedAddressReadAsHex()
    ensures AddressAsWritten(ConventionalParsers(), map[], Node(true, "table", map[], "", []), "Boost Target", 16) == 22
    ensures ResolvedAddress(ConventionalParsers(), map[], Node(true, "table", map[], "", []), "Boost Target", 16) == 16
  {
    assert Digits(16) == "16" by {
      assert Digits(1) == "1";
      assert DigitChar(6) == '6';
    }
    assert HexDigitsValue("16") == 22 by {
      assert "16"[..1] == "1";
      assert "1"[..0] == "";
    }
  }

  /** The two readings agree whenever the pre-scan or the node states the address. */
  lemma AddressReadingsAgreeWhenStated(p: Parsers, names: map<string, int>, n: Node, tn: string, current: int)
    requires tn in names || "storageaddress" in n.attrs
    ensures AddressAsWritten(p, names, n, tn, current) == ResolvedAddress(p, names, n, tn, current)
  {
  }

  /** The address and endianness promises of a resolved table. */
  predicate Settled(u: Unmarshaller, t: Table)
  {
    && (t.name in u.tableNames ==> t.storageAddress == u.tableNames[t.name])
    && (u.memModelEndian.Some? ==>
          t.endian == ModelEndian(u.memModelEndian.value) && t.memModelEndian == Some(ModelEndian(u.memModelEndian.value)))
  }

  /** Every header field the node does not mention keeps the value it had. */
  predicate KeepsUnstated(n: Node, t: Table, r: Table)
  {
    && ("name" !in n.attrs ==> r.name == t.name)
    && ("category" !in n.attrs ==> r.category == t.category)
    && ("sizex" !in n.attrs && "sizey" !in n.attrs ==> r.dataSize == t.dataSize)
    && ("flipx" !in n.attrs && "flipy" !in n.attrs ==> r.flip == t.flip)
    && ("userlevel" !in n.attrs ==> r.userLevel == t.userLevel)
    && ("locked" !in n.attrs ==> r.locked == t.locked)
    && ("logparam" !in n.attrs ==> r.logParam == t.logParam)
    && (!FlagSet(n, "beforeram") ==> r.beforeRam == t.beforeRam)
    && (t.variant.ThreeD? ==>
          && r.variant.ThreeD?
          && ("swapxy" !in n.attrs ==> r.variant.swapXY == t.variant.swapXY)
          && ("flipx" !in n.attrs ==> r.variant.flipX == t.variant.flipX)
          && ("flipy" !in n.attrs ==> r.variant.flipY == t.variant.flipY)
          && ("sizex" !in n.attrs ==> r.variant.sizeX == t.variant.sizeX)
          && ("sizey" !in n.attrs ==> r.variant.sizeY == t.variant.sizeY))
  }

  /** Every header attribute the node states is taken from the node (through
      the attribute parsers where it is typed), and layout and mask fall back
      to their fixed defaults. */
  predicate TakesStated(p: Parsers, u: Unmarshaller, n: Node, r: Table)
  {
    StatedIdentity(n, r) && StatedEncoding(p, u, n, r) && StatedLayout(p, n, r) && StatedDims(p, n, r)
  }

  /** A stated address counts unless the pre-scan knows the name; a stated
      byte order counts unless a memory model forces one. */
  predicate StatedEncoding(p: Parsers, u: Unmarshaller, n: Node, r: Table)
  {
    && (r.name !in u.tableNames && "storageaddress" in n.attrs ==> r.storageAddress == p.hex(n.attrs["storageaddress"]))
    && (u.memModelEndian.None? && "endian" in n.attrs ==> r.endian == p.endian(n.attrs["endian"]))
    && ("storagetype" in n.attrs ==> r.storageType == p.storageType(n.attrs["storagetype"]))
  }

  predicate StatedIdentity(n: Node, r: Table)
  {
    && ("name" in n.attrs ==> r.name == n.attrs["name"])
    && ("category" in n.attrs ==> r.category == n.attrs["category"])
    && (FlagSet(n, "beforeram") ==> r.beforeRam)
    && r.dataLayout == Attr(n, "dataLayout", "")
  }

  predicate StatedLayout(p: Parsers, n: Node, r: Table)
  {
    && r.stringMask == Attr(n, "mask", "0")
    && ("sizey" in n.attrs ==> r.dataSize == p.integer(n.attrs["sizey"]))
    && ("sizey" !in n.attrs && "sizex" in n.attrs ==> r.dataSize == p.integer(n.attrs["sizex"]))
    && ("flipy" in n.attrs ==> r.flip == p.boolean(n.attrs["flipy"]))
    && ("flipy" !in n.attrs && "flipx" in n.attrs ==> r.flip == p.boolean(n.attrs["flipx"]))
    && ("userlevel" in n.attrs ==> r.userLevel == p.integer(n.attrs["userlevel"]))
    && ("locked" in n.attrs ==> r.locked == p.boolean(n.attrs["locked"]))
    && ("logparam" in n.attrs ==> r.logParam == n.attrs["logparam"])
  }

  predicate StatedDims(p: Parsers, n: Node, r: Table)
  {
    r.variant.ThreeD? ==>
      && ("swapxy" in n.attrs ==> r.variant.swapXY == p.boolean(n.attrs["swapxy"]))
      && ("flipx" in n.attrs ==> r.variant.flipX == p.boolean(n.attrs["flipx"]))
      && ("flipy" in n.attrs ==> r.variant.flipY == p.boolean(n.attrs["flipy"]))
      && ("sizex" in n.attrs ==> r.variant.sizeX == p.integer(n.attrs["sizex"]))
      && ("sizey" in n.attrs ==> r.variant.sizeY == p.integer(n.attrs["sizey"]))
  }

  /** The axes, cells, scales and named values are not touched by the overlay. */
  predicate SameParts(t: Table, r: Table)
  {
    && TypeOf(r) == TypeOf(t)
    && r.scales == t.scales
    && r.values == t.values
    && (t.variant.Linear? ==> r.variant == t.variant)
    && (t.variant.TwoD? ==> r.variant == t.variant)
    && (t.variant.ThreeD? ==> r.variant.xAxis == t.variant.xAxis && r.variant.yAxis == t.variant.yAxis)
  }

  /** Lays the node's scalar attributes over the table. */
  function Overlay(p: Parsers, u: Unmarshaller, n: Node, t: Table): (r: Table)
    ensures KeepsUnstated(n, t, r)
    ensures TakesStated(p, u, n, r)
    ensures r.description == Attr(n, "description", t.description)
    ensures SameParts(t, r)
    ensures Settled(u, r)
    ensures r.name !in u.tableNames && "storageaddress" in n.attrs ==> r.storageAddress == p.hex(n.attrs["storageaddress"])
    ensures r.name !in u.tableNames && "storageaddress" !in n.attrs ==> r.storageAddress == t.storageAddress
    ensures u.memModelEndian.None? ==>
              r.endian == p.endian(Attr(n, "endian", MarshallingString(t.endian))) && r.memModelEndian == t.memModelEndian
    ensures r.beforeRam <==> t.beforeRam || FlagSet(n, "beforeram")
    ensures t.storageType >= 1 ==> r.signedData == t.signedData
    ensures t.storageType < 1 ==> r.signedData == p.dataSign(Attr(n, "storagetype", Decimal(t.storageType)))
    ensures r.storageType == p.storageType(Attr(n, "storagetype", Decimal(t.storageType)))
  {
    StagesTakeStated(p, u, n, t);
    OverlayDims(p, n, OverlayLayout(p, n, OverlayIdentity(p, u, n, t)))
  }

  /** The three overlay stages together take every stated header attribute. */
  lemma StagesTakeEncoding(p: Parsers, u: Unmarshaller, n: Node, t: Table)
    ensures StatedEncoding(p, u, n, OverlayDims(p, n, OverlayLayout(p, n, OverlayIdentity(p, u, n, t))))
  {
    var a := OverlayIdentity(p, u, n, t);
    var c := OverlayDims(p, n, OverlayLayout(p, n, a));
    assert StatedEncoding(p, u, n, a);
    assert c.name == a.name && c.storageAddress == a.storageAddress && c.endian == a.endian && c.storageType == a.storageType;
  }

  lemma StagesTakeStated(p: Parsers, u: Unmarshaller, n: Node, t: Table)
    ensures TakesStated(p, u, n, OverlayDims(p, n, OverlayLayout(p, n, OverlayIdentity(p, u, n, t))))
  {
    var a := OverlayIdentity(p, u, n, t);
    var b := OverlayLayout(p, n, a);
    var c := OverlayDims(p, n, b);
    assert StatedIdentity(n, a);
    StagesTakeEncoding(p, u, n, t);
    assert StatedIdentity(n, c) by {
      assert c.name == a.name && c.category == a.category && c.beforeRam == a.beforeRam && c.dataLayout == a.dataLayout;
    }
    assert StatedLayout(p, n, b);
    assert StatedLayout(p, n, c) by {
      assert c.stringMask == b.stringMask && c.dataSize == b.dataSize && c.flip == b.flip;
      assert c.userLevel == b.userLevel && c.locked == b.locked && c.logParam == b.logParam;
    }
    assert b.variant == t.variant;
    assert StatedDims(p, n, c);
  }

  /** The first half of the overlay: name, flags, storage encoding, byte order and address. */
  function OverlayIdentity(p: Parsers, u: Unmarshaller, n: Node, t: Table): (r: Table)
    ensures r == t.(name := r.name, beforeRam := r.beforeRam, dataLayout := r.dataLayout, category := r.category,
                    signedData := r.signedData, storageType := r.storageType, endian := r.endian,
                    memModelEndian := r.memModelEndian, storageAddress := r.storageAddress)
    ensures r.name == Attr(n, "name", t.name)
    ensures r.category == Attr(n, "category", t.category)
    ensures r.storageAddress == ResolvedAddress(p, u.tableNames, n, r.name, t.storageAddress)
    ensures u.memModelEndian.Some? ==>
              r.endian == ModelEndian(u.memModelEndian.value) && r.memModelEndian == Some(ModelEndian(u.memModelEndian.value))
    ensures u.memModelEndian.None? ==>
              r.endian == p.endian(Attr(n, "endian", MarshallingString(t.endian))) && r.memModelEndian == t.memModelEndian
    ensures r.beforeRam <==> t.beforeRam || FlagSet(n, "beforeram")
    ensures t.storageType >= 1 ==> r.signedData == t.signedData
    ensures t.storageType < 1 ==> r.signedData == p.dataSign(Attr(n, "storagetype", Decimal(t.storageType)))
    ensures r.storageType == p.storageType(Attr(n, "storagetype", Decimal(t.storageType)))
    ensures r.dataLayout == Attr(n, "dataLayout", "")
  {
    var tn := Attr(n, "name", t.name);
    var storage := Attr(n, "storagetype", Decimal(t.storageType));
    var endian :=
      match u.memModelEndian
      case None => p.endian(Attr(n, "endian", MarshallingString(t.endian)))
      case Some(s) => ModelEndian(s);
    t.(
      name := tn,
      beforeRam := if FlagSet(n, "beforeram") then true else t.beforeRam,
      dataLayout := Attr(n, "dataLayout", ""),
      category := Attr(n, "category", t.category),
      signedData := if t.storageType < 1 then p.dataSign(storage) else t.signedData,
      storageType := p.storageType(storage),
      endian := endian,
      memModelEndian := if u.memModelEndian.Some? then Some(endian) else t.memModelEndian,
      storageAddress := ResolvedAddress(p, u.tableNames, n, tn, t.storageAddress))
  }

  /** The second half: description, sizes, flip, user level, lock, log parameter and mask. */
  function OverlayLayout(p: Parsers, n: Node, t: Table): (r: Table)
    ensures r == t.(description := r.description, dataSize := r.dataSize, flip := r.flip, userLevel := r.userLevel,
                    locked := r.locked, logParam := r.logParam, stringMask := r.stringMask)
    ensures r.description == Attr(n, "description", t.description)
    ensures "sizex" !in n.attrs && "sizey" !in n.attrs ==> r.dataSize == t.dataSize
    ensures "flipx" !in n.attrs && "flipy" !in n.attrs ==> r.flip == t.flip
    ensures r.userLevel == AttrInt(p, n, "userlevel", t.userLevel)
    ensures r.locked == AttrBool(p, n, "locked", t.locked)
    ensures r.logParam == Attr(n, "logparam", t.logParam)
    ensures "sizey" in n.attrs ==> r.dataSize == p.integer(n.attrs["sizey"])
    ensures "sizey" !in n.attrs && "sizex" in n.attrs ==> r.dataSize == p.integer(n.attrs["sizex"])
    ensures "flipy" in n.attrs ==> r.flip == p.boolean(n.attrs["flipy"])
    ensures "flipy" !in n.attrs && "flipx" in n.attrs ==> r.flip == p.boolean(n.attrs["flipx"])
    ensures r.stringMask == Attr(n, "mask", "0")
  {
    t.(
      description := Attr(n, "description", t.description),
      dataSize := AttrInt(p, n, "sizey", AttrInt(p, n, "sizex", t.dataSize)),
      flip := AttrBool(p, n, "flipy", AttrBool(p, n, "flipx", t.flip)),
      userLevel := AttrInt(p, n, "userlevel", t.userLevel),
      locked := AttrBool(p, n, "locked", t.locked),
      logParam := Attr(n, "logparam", t.logParam),
      stringMask := Attr(n, "mask", "0"))
  }

  /** The 3D-only attributes; other kinds are returned unchanged. */
  function OverlayDims(p: Parsers, n: Node, t: Table): (r: Table)
    ensures r == t.(variant := r.variant)
    ensures SameParts(t, r)
    ensures t.variant.ThreeD? ==>
              && r.variant.ThreeD?
              && ("swapxy" !in n.attrs ==> r.variant.swapXY == t.variant.swapXY)
              && ("flipx" !in n.attrs ==> r.variant.flipX == t.variant.flipX)
              && ("flipy" !in n.attrs ==> r.variant.flipY == t.variant.flipY)
              && ("sizex" !in n.attrs ==> r.variant.sizeX == t.variant.sizeX)
              && ("sizey" !in n.attrs ==> r.variant.sizeY == t.variant.sizeY)
    ensures t.variant.ThreeD? ==>
              && r.variant.swapXY == AttrBool(p, n, "swapxy", t.variant.swapXY)
              && r.variant.flipX == AttrBool(p, n, "flipx", t.variant.flipX)
              && r.variant.flipY == AttrBool(p, n, "flipy", t.variant.flipY)
              && r.variant.sizeX == AttrInt(p, n, "sizex", t.variant.sizeX)
              && r.variant.sizeY == AttrInt(p, n, "sizey", t.variant.sizeY)
  {
    match t.variant
    case ThreeD(x, y, swap, fx, fy, sx, sy) =>
      t.(variant := ThreeD(x, y,
                           AttrBool(p, n, "swapxy", swap),
                           AttrBool(p, n, "flipx", fx),
                           AttrBool(p, n, "flipy", fy),
                           AttrInt(p, n, "sizex", sx),
                           AttrInt(p, n, "sizey", sy)))
    case _ => t
  }

  /** The axis slots of 2D and 3D tables. */
  datatype Slot = AxisSlot | XSlot | YSlot

  /** The axis in `slot` has the size its owner dictates: the 2D table's
      data size, or the 3D table's sizeX or sizeY. Vacuous for other kinds. */
  predicate Fitted(t: Table, slot: Slot)
  {
    match slot
    case AxisSlot => t.variant.TwoD? ==> t.variant.axis.dataSize == t.dataSize
    case XSlot => t.variant.ThreeD? ==> t.variant.xAxis.dataSize == t.variant.sizeX
    case YSlot => t.variant.ThreeD? ==> t.variant.yAxis.dataSize == t.variant.sizeY
  }

  /** Child `kid` of a table of kind `kind` is resolved into the axis in `slot`. */
  predicate Feeds(p: Parsers, kind: TableType, kid: Node, slot: Slot)
  {
    && IsElementNamed(kid, "table")
    && var tt := p.tableType(Attr(kid, "type", "unknown"));
       match slot
       case AxisSlot => kind == Table2D && (tt == XAxis || tt == YAxis)
       case XSlot => kind == Table3D && tt == XAxis
       case YSlot => kind == Table3D && tt == YAxis
  }

  /** The fields the child walk never changes. */
  predicate SameHeader(a: Table, b: Table)
  {
    && a.name == b.name
    && a.category == b.category
    && a.storageAddress == b.storageAddress
    && a.storageType == b.storageType
    && a.signedData == b.signedData
    && a.endian == b.endian
    && a.memModelEndian == b.memModelEndian
    && a.dataSize == b.dataSize
    && a.flip == b.flip
    && a.beforeRam == b.beforeRam
    && a.locked == b.locked
    && a.userLevel == b.userLevel
    && a.logParam == b.logParam
    && a.stringMask == b.stringMask
    && a.dataLayout == b.dataLayout
    && TypeOf(a) == TypeOf(b)
    && (a.variant.ThreeD? ==>
          && a.variant.sizeX == b.variant.sizeX && a.variant.sizeY == b.variant.sizeY
          && a.variant.swapXY == b.variant.swapXY
          && a.variant.flipX == b.variant.flipX && a.variant.flipY == b.variant.flipY)
  }

  /** The size the axis in `slot` is forced to. */
  function SlotSize(t: Table, slot: Slot): int
  {
    match t.variant
    case ThreeD(_, _, _, _, _, sx, sy) => if slot == XSlot then sx else sy
    case _ => t.dataSize
  }

  /** The axis held in `slot`, if `t` has that slot. */
  function SlotAxis(t: Table, slot: Slot): Option<Table>
  {
    match t.variant
    case TwoD(a) => if slot == AxisSlot then Some(a) else None
    case ThreeD(x, y, _, _, _, _, _) => if slot == XSlot then Some(x) else if slot == YSlot then Some(y) else None
    case _ => None
  }

  /** The axis in `slot`, if any, has the address and byte order the
      unmarshaller's state dictates. */
  predicate AxisSettled(u: Unmarshaller, t: Table, slot: Slot)
  {
    SlotAxis(t, slot).Some? ==> Settled(u, SlotAxis(t, slot).value)
  }

  /** Puts `a` into the axis slot of `t`. */
  function Install(t: Table, slot: Slot, a: Table): (r: Table)
    requires slot == AxisSlot ==> t.variant.TwoD?
    requires slot != AxisSlot ==> t.variant.ThreeD?
    ensures SameHeader(t, r)
    ensures SlotAxis(r, slot) == Some(a)
    ensures forall s :: s != slot ==> SlotAxis(r, s) == SlotAxis(t, s)
    ensures a.dataSize == SlotSize(t, slot) ==> Fitted(r, slot)
    ensures forall s :: s != slot && Fitted(t, s) ==> Fitted(r, s)
  {
    match t.variant
    case TwoD(_) => t.(variant := TwoD(a))
    case ThreeD(x, y, swap, fx, fy, sx, sy) =>
      if slot == XSlot then t.(variant := ThreeD(a, y, swap, fx, fy, sx, sy))
      else t.(variant := ThreeD(x, a, swap, fx, fy, sx, sy))
  }

  /** After an axis child resolved: cast to a linear table, force its size,
      install it. A missing or non-linear axis is a fault; omission and
      parse errors of the child propagate to the parent. */
  function FitAxis(sub: Resolution, t: Table, slot: Slot): (r: Resolution)
    requires slot == AxisSlot ==> t.variant.TwoD?
    requires slot != AxisSlot ==> t.variant.ThreeD?
    ensures r.scales == sub.scales
    ensures r.outcome.Resolved? ==> r.outcome.table.Some? && SameHeader(t, r.outcome.table.value)
    ensures r.outcome.Resolved? ==> Fitted(r.outcome.table.value, slot)
    ensures forall s :: s != slot && r.outcome.Resolved? && Fitted(t, s) ==> Fitted(r.outcome.table.value, s)
    ensures !sub.outcome.Resolved? ==> r == sub
    ensures sub.outcome == Resolved(None) ==> r == Resolution(Fault("resolved axis is missing"), sub.scales)
    ensures sub.outcome.Resolved? && sub.outcome.table.Some? && !sub.outcome.table.value.variant.Linear?
            ==> r == Resolution(Fault("resolved axis is not a linear table"), sub.scales)
    ensures sub.outcome.Resolved? && sub.outcome.table.Some? && sub.outcome.table.value.variant.Linear?
            ==> r == Resolution(Resolved(Some(Install(t, slot, sub.outcome.table.value.(dataSize := SlotSize(t, slot))))),
                                sub.scales)
  {
    match sub.outcome
    case Resolved(Some(a)) =>
      if a.variant.Linear? then
        var size := SlotSize(t, slot);
        var fitted := if a.dataSize != size then a.(dataSize := size) else a;
        Resolution(Resolved(Some(Install(t, slot, fitted))), sub.scales)
      else Resolution(Fault("resolved axis is not a linear table"), sub.scales)
    case Resolved(None) => Resolution(Fault("resolved axis is missing"), sub.scales)
    case _ => sub
  }

  /** The table after a successful step. */
  function Result(r: Resolution): Table
    requires Built(r)
  {
    r.outcome.table.value
  }

  /** A change that leaves the header and the axes alone. */
  predicate Untouched(t: Table, r: Table)
  {
    SameHeader(t, r) && (r.variant == t.variant || (t.variant.Linear? && r.variant.Linear?))
  }

  /** The axis in `slot` is sized to its slot and settled. */
  predicate SlotDone(u: Unmarshaller, x: Table, slot: Slot)
  {
    Fitted(x, slot) && AxisSettled(u, x, slot)
  }

  /** A slot that was fitted, or settled, in `t` still is in `x`. */
  predicate SlotKept(u: Unmarshaller, t: Table, x: Table, slot: Slot)
  {
    (Fitted(t, slot) ==> Fitted(x, slot)) && (AxisSettled(u, t, slot) ==> AxisSettled(u, x, slot))
  }

  /** Every slot is kept from `t` to `x`. */
  predicate SlotsKept(u: Unmarshaller, t: Table, x: Table)
  {
    SlotKept(u, t, x, AxisSlot) && SlotKept(u, t, x, XSlot) && SlotKept(u, t, x, YSlot)
  }

  /** Chaining two steps, the second run with a registry-only update of the state. */
  lemma SlotsChain(u: Unmarshaller, u2: Unmarshaller, t: Table, x: Table, y: Table)
    requires u2.tableNames == u.tableNames && u2.memModelEndian == u.memModelEndian
    requires SlotsKept(u, t, x) && SlotsKept(u2, x, y)
    ensures SlotsKept(u, t, y)
    ensures forall slot :: SlotDone(u, x, slot) ==> SlotDone(u, y, slot)
    ensures forall slot :: SlotDone(u2, y, slot) ==> SlotDone(u, y, slot)
  {
    forall a: Table
      ensures Settled(u2, a) == Settled(u, a)
    {
    }
    forall slot
      ensures SlotKept(u, t, y, slot)
    {
      assert SlotKept(u, t, x, slot) && SlotKept(u2, x, y, slot) by { match slot {
        case AxisSlot =>
        case XSlot =>
        case YSlot =>
      } }
    }
  }

  /** Some child of `n` from index `i` on feeds `slot` of a table of kind `kind`. */
  predicate FedFrom(p: Parsers, kind: TableType, n: Node, i: nat, slot: Slot)
  {
    exists j :: i <= j < |n.children| && Feeds(p, kind, n.children[j], slot)
  }

  /** One step of the walk followed by the rest of it. */
  lemma WalkLink(p: Parsers, u: Unmarshaller, u2: Unmarshaller, n: Node, i: nat, kind: TableType, t: Table, x: Table, y: Table)
    requires i < |n.children|
    requires u2.tableNames == u.tableNames && u2.memModelEndian == u.memModelEndian
    requires SlotsKept(u, t, x) && SlotsKept(u2, x, y)
    requires forall slot :: Feeds(p, kind, n.children[i], slot) ==> SlotDone(u, x, slot)
    requires forall slot :: FedFrom(p, kind, n, i + 1, slot) ==> SlotDone(u2, y, slot)
    ensures SlotsKept(u, t, y)
    ensures forall slot :: FedFrom(p, kind, n, i, slot) ==> SlotDone(u, y, slot)
  {
    SlotsChain(u, u2, t, x, y);
    forall slot | FedFrom(p, kind, n, i, slot)
      ensures SlotDone(u, y, slot)
    {
      var j :| i <= j < |n.children| && Feeds(p, kind, n.children[j], slot);
      if j > i {
        assert FedFrom(p, kind, n, i + 1, slot);
      }
    }
  }

  /** A child that is not an axis leaves every slot as it was. */
  lemma UntouchedKeepsSlots(u: Unmarshaller, t: Table, x: Table)
    requires Untouched(t, x)
    ensures SlotsKept(u, t, x)
  {
    assert forall slot :: SlotAxis(x, slot) == SlotAxis(t, slot);
  }

  lemma SameHeaderChain(a: Table, b: Table, c: Table)
    requires SameHeader(a, b) && SameHeader(b, c)
    ensures SameHeader(a, c)
  {
  }

  /** The walk keeps the header, so what the overlay settled and took from the node stays. */
  lemma HeaderKeepsStated(p: Parsers, u: Unmarshaller, n: Node, t: Table, a: Table, b: Table)
    requires SameHeader(a, b) && Settled(u, a) && TakesStated(p, u, n, a)
    requires KeepsUnstated(n, t, a) && TypeOf(a) == TypeOf(t)
    ensures Settled(u, b) && TakesStated(p, u, n, b)
    ensures KeepsUnstated(n, t, b) && TypeOf(b) == TypeOf(t)
  {
    assert StatedIdentity(n, b);
    assert StatedEncoding(p, u, n, b);
    assert StatedLayout(p, n, b);
    assert StatedDims(p, n, b);
    HeaderKeepsUnstated(n, t, a, b);
  }

  lemma HeaderKeepsUnstated(n: Node, t: Table, a: Table, b: Table)
    requires SameHeader(a, b) && KeepsUnstated(n, t, a)
    ensures KeepsUnstated(n, t, b)
  {
  }

  /** One child node of the walk. */
  function Step(p: Parsers, u: Unmarshaller, rom: map<string, Table>, kid: Node, t: Table): (r: Resolution)
    ensures u.scales <= r.scales
    ensures NoDuplicates(u.scales) ==> NoDuplicates(r.scales)
    ensures r.outcome.Resolved? ==> r.outcome.table.Some? && SameHeader(t, r.outcome.table.value)
    ensures Built(r) ==> SlotsKept(u, t, Result(r))
    ensures forall slot :: Built(r) && Feeds(p, TypeOf(t), kid, slot) ==> SlotDone(u, Result(r), slot)
    ensures IsElementNamed(kid, "table") ==> r == AxisStep(p, u, rom, kid, t)
    ensures !IsElementNamed(kid, "table") ==> r == LocalStep(p, kid, t, u.scales)
    decreases kid, 5
  {
    if IsElementNamed(kid, "table") then AxisStep(p, u, rom, kid, t)
    else
      var r := LocalStep(p, kid, t, u.scales);
      UntouchedKeepsSlots(u, t, Result(r));
      r
  }

  /** A `table` child: resolved into an axis of a 2D or 3D parent, ignored otherwise. */
  function AxisStep(p: Parsers, u: Unmarshaller, rom: map<string, Table>, kid: Node, t: Table): (r: Resolution)
    requires IsElementNamed(kid, "table")
    ensures u.scales <= r.scales
    ensures NoDuplicates(u.scales) ==> NoDuplicates(r.scales)
    ensures r.outcome.Resolved? ==> r.outcome.table.Some? && SameHeader(t, r.outcome.table.value)
    ensures Built(r) ==> SlotsKept(u, t, Result(r))
    ensures forall slot :: Built(r) && Feeds(p, TypeOf(t), kid, slot) ==> SlotDone(u, Result(r), slot)
    ensures forall slot :: Feeds(p, TypeOf(t), kid, slot) ==> r == AxisInto(p, u, rom, kid, t, slot)
    ensures (forall slot :: !Feeds(p, TypeOf(t), kid, slot)) ==> r == Resolution(Resolved(Some(t)), u.scales)
    decreases kid, 4
  {
    match FedSlot(p, t, kid)
    case Some(slot) => AxisInto(p, u, rom, kid, t, slot)
    case None => Resolution(Resolved(Some(t)), u.scales)
  }

  /** The slot of `t` that a `table` child fills: the one axis of a 2D table
      whichever axis type the child declares, the x or y axis of a 3D table
      by the child's type, and none otherwise. */
  function FedSlot(p: Parsers, t: Table, kid: Node): (o: Option<Slot>)
    requires IsElementNamed(kid, "table")
    ensures forall slot :: Feeds(p, TypeOf(t), kid, slot) <==> o == Some(slot)
  {
    var tt := p.tableType(Attr(kid, "type", "unknown"));
    match t.variant
    case TwoD(_) => if tt == YAxis || tt == XAxis then Some(AxisSlot) else None
    case ThreeD(_, _, _, _, _, _, _) =>
      if tt == XAxis then Some(XSlot)
      else if tt == YAxis then Some(YSlot)
      else None
    case _ => None
  }

  /** Resolves `kid` from the axis currently in `slot` and installs the
      result there, sized to the slot. */
  function AxisInto(p: Parsers, u: Unmarshaller, rom: map<string, Table>, kid: Node, t: Table, slot: Slot): (r: Resolution)
    requires Feeds(p, TypeOf(t), kid, slot)
    ensures r == FitAxis(Resolve(p, u, rom, kid, SlotAxis(t, slot)), t, slot)
    ensures u.scales <= r.scales
    ensures NoDuplicates(u.scales) ==> NoDuplicates(r.scales)
    ensures r.outcome.Resolved? ==> r.outcome.table.Some? && SameHeader(t, r.outcome.table.value)
    ensures Built(r) ==> SlotDone(u, Result(r), slot) && SlotsKept(u, t, Result(r))
    decreases kid, 3
  {
    var sub := Resolve(p, u, rom, kid, SlotAxis(t, slot));
    FittedSlots(u, sub, t, slot);
    FitAxis(sub, t, slot)
  }

  /** Fitting a settled axis into `slot` completes that slot and keeps the others. */
  lemma FittedSlots(u: Unmarshaller, sub: Resolution, t: Table, slot: Slot)
    requires slot == AxisSlot ==> t.variant.TwoD?
    requires slot != AxisSlot ==> t.variant.ThreeD?
    requires Built(sub) ==> Settled(u, Result(sub))
    ensures var r := FitAxis(sub, t, slot); Built(r) ==> SlotDone(u, Result(r), slot) && SlotsKept(u, t, Result(r))
  {
    var r := FitAxis(sub, t, slot);
    if Built(r) {
      var a := sub.outcome.table.value;
      assert SlotAxis(Result(r), slot) == Some(a.(dataSize := SlotSize(t, slot)));
      assert SlotKept(u, t, Result(r), slot);
    }
  }


  /** Every child other than a `table`: scalings are resolved and attached,
      data cells are added to linear tables only, a description element
      replaces the description, states and bits record named values, and
      anything else is skipped. */
  function LocalStep(p: Parsers, kid: Node, t: Table, reg: seq<Scale>): (r: Resolution)
    ensures Built(r) && Untouched(t, Result(r))
    ensures reg <= r.scales
    ensures NoDuplicates(reg) ==> NoDuplicates(r.scales)
    ensures IsElementNamed(kid, "scaling") ==>
              var res := ResolveScale(p, kid, GetScale(t, Attr(kid, "name", "Default")), reg);
              && r == Resolution(Resolved(Some(AddScale(t, res.scale))), res.registry)
              && res.scale in Result(r).scales && res.scale in r.scales
    ensures IsElementNamed(kid, "data") && !t.variant.Linear? ==> r == Resolution(Resolved(Some(t)), reg)
    ensures IsElementNamed(kid, "data") && t.variant.Linear? ==>
              r == Resolution(Resolved(Some(t.(variant := Linear(t.variant.role, t.variant.cells + [kid.text])))), reg)
    ensures IsElementNamed(kid, "description") ==> r == Resolution(Resolved(Some(t.(description := kid.text))), reg)
    ensures IsElementNamed(kid, "state") ==>
              r == Resolution(Resolved(Some(SetValues(t, Attr(kid, "name", ""), Attr(kid, "data", "0")))), reg)
    ensures IsElementNamed(kid, "bit") ==>
              r == Resolution(Resolved(Some(SetValues(t, Attr(kid, "name", ""), Attr(kid, "position", "0")))), reg)
    ensures !IsElementNamed(kid, "scaling") && !IsElementNamed(kid, "data") && !IsElementNamed(kid, "description")
            && !IsElementNamed(kid, "state") && !IsElementNamed(kid, "bit")
            ==> r == Resolution(Resolved(Some(t)), reg)
  {
    LowerChildTags();
    var ok := Resolution(Resolved(Some(t)), reg);
    if !kid.isElement then ok
    else if EqualsIgnoreCase(kid.tag, "scaling") then
      var res := ResolveScale(p, kid, GetScale(t, Attr(kid, "name", "Default")), reg);
      Resolution(Resolved(Some(AddScale(t, res.scale))), res.registry)
    else if EqualsIgnoreCase(kid.tag, "data") then
      match t.variant
      case Linear(role, cells) => Resolution(Resolved(Some(t.(variant := Linear(role, cells + [kid.text])))), reg)
      case _ => ok
    else if EqualsIgnoreCase(kid.tag, "description") then
      Resolution(Resolved(Some(t.(description := kid.text))), reg)
    else if EqualsIgnoreCase(kid.tag, "state") then
      Resolution(Resolved(Some(SetValues(t, Attr(kid, "name", ""), Attr(kid, "data", "0")))), reg)
    else if EqualsIgnoreCase(kid.tag, "bit") then
      Resolution(Resolved(Some(SetValues(t, Attr(kid, "name", ""), Attr(kid, "position", "0")))), reg)
    else ok
  }

  /** The lower-case forms of the child tags, so that the tags are seen to be distinct. */
  lemma LowerChildTags()
    ensures Lower("scaling") == "scaling" && Lower("data") == "data" && Lower("description") == "description"
    ensures Lower("state") == "state" && Lower("bit") == "bit" && Lower("table") == "table"
  {
  }

  /** The walk over the children of `n` from index `i` on; the first failing
      child ends it. */
  function Walk(p: Parsers, u: Unmarshaller, rom: map<string, Table>, n: Node, i: nat, t: Table): (r: Resolution)
    requires i <= |n.children|
    ensures u.scales <= r.scales
    ensures NoDuplicates(u.scales) ==> NoDuplicates(r.scales)
    ensures r.outcome.Resolved? ==> r.outcome.table.Some? && SameHeader(t, r.outcome.table.value)
    ensures Built(r) ==> SlotsKept(u, t, Result(r))
    ensures forall slot :: Built(r) && FedFrom(p, TypeOf(t), n, i, slot) ==> SlotDone(u, Result(r), slot)
    decreases n, 1, |n.children| - i
  {
    if i == |n.children| then Resolution(Resolved(Some(t)), u.scales)
    else
      var s := Step(p, u, rom, n.children[i], t);
      if Built(s) then
        var u2 := u.(scales := s.scales);
        var r := Walk(p, u2, rom, n, i + 1, Result(s));
        if Built(r) then
          SameHeaderChain(t, Result(s), Result(r));
          WalkLink(p, u, u2, n, i, TypeOf(t), t, Result(s), Result(r));
          r
        else if r.outcome.Resolved? then SameHeaderChain(t, Result(s), Result(r)); r
        else r
      else s
  }

  /** unmarshallTable: resolves one table node against a seed table (absent
      for a table met for the first time), the ROM's tables by name, and the
      unmarshaller's state. */
  function Resolve(p: Parsers, u: Unmarshaller, rom: map<string, Table>, n: Node, table: Option<Table>): (r: Resolution)
    ensures u.scales <= r.scales
    ensures NoDuplicates(u.scales) ==> NoDuplicates(r.scales)
    ensures FlagSet(n, "omit") ==> r == Resolution(Omitted, u.scales)
    ensures !FlagSet(n, "omit") && Inherit(rom, n, table).None? && !Gate(u, n)
            ==> r == Resolution(Resolved(None), u.scales)
    ensures table.Some? && r.outcome.Resolved? ==> r.outcome.table.Some?
    ensures Built(r) ==> Settled(u, Result(r)) && TakesStated(p, u, n, Result(r))
    ensures forall slot :: Built(r) && FedFrom(p, TypeOf(Result(r)), n, 0, slot) ==> SlotDone(u, Result(r), slot)
    ensures Built(r) && Inherit(rom, n, table).Some? ==>
              var seed := Inherit(rom, n, table).value;
              KeepsUnstated(n, seed, Result(r)) && TypeOf(Result(r)) == TypeOf(seed)
    decreases n, 2
  {
    if FlagSet(n, "omit") then Resolution(Omitted, u.scales)
    else
      match Materialise(u, n, Inherit(rom, n, table))
      case Resolved(Some(t)) =>
        assert Inherit(rom, n, table).Some? ==> t == Inherit(rom, n, table).value;
        Build(p, u, rom, n, t)
      case o => Resolution(o, u.scales)
  }

  /** The materialised table `t`, overlaid with the node's attributes and
      then walked through its children. */
  function Build(p: Parsers, u: Unmarshaller, rom: map<string, Table>, n: Node, t: Table): (r: Resolution)
    ensures r == Walk(p, u, rom, n, 0, Overlay(p, u, n, t))
    ensures u.scales <= r.scales
    ensures NoDuplicates(u.scales) ==> NoDuplicates(r.scales)
    ensures r.outcome.Resolved? ==> r.outcome.table.Some?
    ensures Built(r) ==> Settled(u, Result(r)) && TakesStated(p, u, n, Result(r))
    ensures Built(r) ==> KeepsUnstated(n, t, Result(r)) && TypeOf(Result(r)) == TypeOf(t)
    ensures forall slot :: Built(r) && FedFrom(p, TypeOf(t), n, 0, slot) ==> SlotDone(u, Result(r), slot)
    decreases n, 1, |n.children| + 1
  {
    var o := Overlay(p, u, n, t);
    var r := Walk(p, u, rom, n, 0, o);
    if Built(r) then HeaderKeepsStated(p, u, n, t, o, Result(r)); r else r
  }

  /** Once the gate lets a new table through, the `type` attribute decides
      the outcome: "none" and spellings no kind accepts are the two parse
      errors, and neither touches the scale registry. */
  lemma DispatchRejects(p: Parsers, u: Unmarshaller, rom: map<string, Table>, n: Node)
    requires !FlagSet(n, "omit") && Inherit(rom, n, None).None? && Gate(u, n)
    ensures var typ := Attr(n, "type", "none");
            var r := Resolve(p, u, rom, n, None);
            && (EqualsIgnoreCase(typ, "none") ==> r == Resolution(Unspecified(NamedItem(n, "name")), u.scales))
            && (!EqualsIgnoreCase(typ, "none") && (forall k :: !Spells(typ, k)) ==>
                  r == Resolution(UnknownType(typ, NamedItem(n, "name")), u.scales))
  {
    var typ := Attr(n, "type", "none");
    ConstructBySpelling(typ);
    var m := Materialise(u, n, None);
    if !EqualsIgnoreCase(typ, "none") && (forall k :: !Spells(typ, k)) {
      assert m == UnknownType(typ, NamedItem(n, "name"));
    }
  }

  /** ... and every accepted spelling of kind `k` that resolves builds a `k`. */
  lemma DispatchBuilds(p: Parsers, u: Unmarshaller, rom: map<string, Table>, n: Node, k: TableType)
    requires !FlagSet(n, "omit") && Inherit(rom, n, None).None? && Gate(u, n)
    requires Spells(Attr(n, "type", "none"), k)
    ensures var r := Resolve(p, u, rom, n, None);
            r.outcome.Resolved? ==> Built(r) && TypeOf(Result(r)) == k
  {
    var typ := Attr(n, "type", "none");
    ConstructBySpelling(typ);
    var built := Fresh(k).(scales := Fresh(k).scales + [RawScale]);
    assert Materialise(u, n, None) == Resolved(Some(built));
    var o := Overlay(p, u, n, built);
    assert TypeOf(o) == k;
    assert Resolve(p, u, rom, n, None) == Walk(p, u, rom, n, 0, o);
  }

  /** Without an `endian` attribute or a memory model, the default is the
      table's own byte order as text, so a parser that reads that text back
      keeps the byte order. */
  lemma UnstatedEndianKept(p: Parsers, u: Unmarshaller, n: Node, t: Table)
    requires forall e :: p.endian(MarshallingString(e)) == e
    requires u.memModelEndian.None? && "endian" !in n.attrs
    ensures Overlay(p, u, n, t).endian == t.endian
  {
  }

  /** Without a `storagetype` attribute the default is the table's own storage
      type written in decimal, so a decimal parser gives that type back. */
  lemma UnstatedStorageTypeKept(u: Unmarshaller, n: Node, t: Table)
    requires "storagetype" !in n.attrs
    ensures Overlay(ConventionalParsers(), u, n, t).storageType == t.storageType
  {
    DecimalRoundTrip(t.storageType);
  }

  /** A table declaring a known `base` keeps every header attribute of the
      base that its node does not restate, and the base's kind. */
  lemma BaseTableRetained(p: Parsers, u: Unmarshaller, rom: map<string, Table>, n: Node, table: Option<Table>)
    requires !FlagSet(n, "omit")
    requires "base" in n.attrs && !EqualsIgnoreCase(n.attrs["base"], "none") && n.attrs["base"] in rom
    requires Built(Resolve(p, u, rom, n, table))
    ensures var b := rom[n.attrs["base"]];
            var t := Result(Resolve(p, u, rom, n, table));
            KeepsUnstated(n, b, t) && TakesStated(p, u, n, t) && TypeOf(t) == TypeOf(b)
  {
    var b := rom[n.attrs["base"]];
    assert Inherit(rom, n, table) == Some(b);
    assert Resolve(p, u, rom, n, table) == Build(p, u, rom, n, b);
  }

  /** An axis child marked as omitted makes the whole parent omitted. */
  lemma OmittedAxisOmitsParent(p: Parsers, u: Unmarshaller, rom: map<string, Table>, kid: Node, t: Table, slot: Slot)
    requires Feeds(p, TypeOf(t), kid, slot) && FlagSet(kid, "omit")
    ensures Step(p, u, rom, kid, t) == Resolution(Omitted, u.scales)
  {
  }

  /** setMemModelEndian: the memory model's byte order, or none. */
  function SetMemModelEndian(u: Unmarshaller, endian: Option<string>): (r: Unmarshaller)
    ensures r.memModelEndian == endian
    ensures r.tableNames == u.tableNames && r.scales == u.scales
  {
    u.(memModelEndian := endian)
  }

  /** Once a memory model's byte order is set, every table built from then on
      uses it, as its endianness and as its memory-model endianness. */
  lemma MemoryModelForcesEndian(p: Parsers, u: Unmarshaller, rom: map<string, Table>, n: Node, table: Option<Table>, e: string)
    ensures var r := Resolve(p, SetMemModelEndian(u, Some(e)), rom, n, table);
            Built(r) ==> Result(r).endian == ModelEndian(e) && Result(r).memModelEndian == Some(ModelEndian(e))
  {
  }

  /** The axis gate tests the raw `type` text for "xis" with case: an axis
      spelled "X AXIS" that the pre-scan did not record is never built, even
      though the type dispatch would accept that spelling. */
  lemma AxisGateIsCaseSensitive(p: Parsers, rom: map<string, Table>)
    ensures var u := Unmarshaller(map[], [], None);
            var n := Node(true, "table", map["name" := "Boost", "type" := "X AXIS"], "", []);
            && Construct("X AXIS") == Some(Fresh(XAxis))
            && Resolve(p, u, rom, n, None) == Resolution(Resolved(None), [])
  {
    var typ := "X AXIS";
    assert forall i :: 0 <= i < |typ| ==> typ[i] != 'x';
    assert forall i :: !OccursAt(typ, "xis", i) by {
      forall i | OccursAt(typ, "xis", i)
        ensures typ[i..i + 3][0] == 'x'
      {
      }
    }
    ContainsIffOccurs(typ, "xis");
    ConstructBySpelling(typ);
    LowerSpellings();
    assert Spells(typ, XAxis) by {
      assert Spellings(XAxis)[0] == "X Axis";
    }
    var n := Node(true, "table", map["name" := "Boost", "type" := typ], "", []);
    assert !FlagSet(n, "omit") by {
      assert |Lower("false")| != |Lower("true")|;
    }
    assert EqualsIgnoreCase(Attr(n, "base", "none"), "none") by {
      EqualsIgnoreCaseIsEquivalence("none", "none", "none");
    }
  }

  /** unmarshallBaseScales with each new base scale registered once: the
      registry only grows, and stays free of duplicates. */
  function UnmarshallBaseScales(p: Parsers, u: Unmarshaller, root: Node): (r: Unmarshaller)
    ensures r.tableNames == u.tableNames && r.memModelEndian == u.memModelEndian
    ensures u.scales <= r.scales
    ensures NoDuplicates(u.scales) ==> NoDuplicates(r.scales)
    ensures forall k :: 0 <= k < |root.children| && FreshBase(root.children[k]) ==>
              ApplyScaleAttrs(p, root.children[k], NewScale) in r.scales
    ensures forall k :: 0 <= k < |root.children| && IsElementNamed(root.children[k], "scalingbase") ==>
              Registered(p, root.children[k], r.scales)
    ensures forall s :: s in r.scales ==> s in u.scales || LoadedFrom(p, root.children, s)
  {
    u.(scales := LoadBaseScalesOnce(p, root.children, u.scales))
  }

  /** The worked example: a base scaling "AFR", a scaling that names it as
      its base, and a 3D table "AFR Target" declaring address 0x1000. */
  function AfrBase(): Node
  {
    Node(true, "scalingbase", map["name" := "AFR", "units" := "AFR", "expression" := "x/10", "max" := "20", "min" := "7"], "", [])
  }

  function AfrUse(): Node
  {
    Node(true, "scaling", map["name" := "AFR", "base" := "AFR"], "", [])
  }

  function AfrTarget(): Node
  {
    Node(true, "table", map["name" := "AFR Target", "type" := "3D", "storageaddress" := "0x1000",
                            "sizex" := "12", "sizey" := "16"], "", [AfrUse()])
  }

  lemma AfrRegistry()
    ensures var reg := LoadBaseScalesOnce(ConventionalParsers(), [AfrBase()], []);
            |reg| == 1 && reg[0].name == "AFR" && reg[0].unit == "AFR" && reg[0].expression == "x/10"
  {
  }

  lemma AfrOverlay(u: Unmarshaller)
    requires u.tableNames == map["AFR Target" := 0x2000] && u.memModelEndian == None
    ensures var o := Overlay(ConventionalParsers(), u, AfrTarget(), Fresh(Table3D).(scales := [RawScale]));
            && o.name == "AFR Target" && o.storageAddress == 0x2000 && o.scales == [RawScale]
            && o.variant.ThreeD? && o.variant.sizeX == 12 && o.variant.sizeY == 16
  {
  }

  lemma AfrMaterialise(u: Unmarshaller)
    requires "AFR Target" in u.tableNames
    ensures Resolve(ConventionalParsers(), u, map[], AfrTarget(), None)
            == Walk(ConventionalParsers(), u, map[], AfrTarget(), 0,
                    Overlay(ConventionalParsers(), u, AfrTarget(), Fresh(Table3D).(scales := [RawScale])))
  {
    var n := AfrTarget();
    assert Attr(n, "omit", "false") == "false" && Attr(n, "base", "none") == "none";
    assert Attr(n, "type", "none") == "3D" && Attr(n, "name", "unknown") == "AFR Target";
    assert !FlagSet(n, "omit") by {
      assert |Lower("false")| != |Lower("true")|;
    }
    EqualsIgnoreCaseIsEquivalence("none", "none", "none");
    assert Inherit(map[], n, None) == None;
    assert Gate(u, n);
    EqualsIgnoreCaseIsEquivalence("3D", "3D", "3D");
    assert Construct("3D") == Some(Fresh(Table3D));
    assert Materialise(u, n, None) == Resolved(Some(Fresh(Table3D).(scales := [RawScale])));
    assert Resolve(ConventionalParsers(), u, map[], n, None)
           == Build(ConventionalParsers(), u, map[], n, Fresh(Table3D).(scales := [RawScale]));
  }

  lemma AfrScaling(u: Unmarshaller, o: Table)
    requires |u.scales| == 1 && u.scales[0].name == "AFR" && u.scales[0].unit == "AFR" && u.scales[0].expression == "x/10"
    requires o.scales == [RawScale]
    ensures var s := Step(ConventionalParsers(), u, map[], AfrUse(), o);
            && Built(s) && Result(s) == o.(scales := Result(s).scales)
            && |Result(s).scales| == 2 && Result(s).scales[0] == RawScale
            && Result(s).scales[1].name == "AFR" && Result(s).scales[1].unit == "AFR"
            && Result(s).scales[1].expression == "x/10"
            && Result(s).scales[1].max == 0.0 && Result(s).scales[1].min == 0.0
  {
    var use := AfrUse();
    assert !IsElementNamed(use, "table") by {
      assert |Lower("scaling")| != |Lower("table")|;
    }
    assert IsElementNamed(use, "scaling") by {
      EqualsIgnoreCaseIsEquivalence("scaling", "scaling", "scaling");
    }
    assert !NamedLike(RawScale, "AFR") by {
      assert |Lower("Default")| != |Lower("AFR")|;
    }
    assert [RawScale][1..] == [];
    assert GetScale(o, "AFR") == NewScale;
    assert !EqualsIgnoreCase("AFR", "none") by {
      assert |Lower("AFR")| != |Lower("none")|;
    }
    EqualsIgnoreCaseIsEquivalence("AFR", "AFR", "AFR");
    assert u.scales[1..] == [];
    assert LastNamed(u.scales, "AFR", NewScale) == u.scales[0];
    assert WithoutNamed([RawScale], "AFR") == [RawScale];
  }

  /** End to end: the table is built with the pre-scan's address and the
      declared sizes, and carries the raw scale and the inherited "AFR"
      scale, whose unit and expression come from the base while its max and
      min read 0. */
  lemma AfrTargetExample()
    ensures var p := ConventionalParsers();
            var u := Unmarshaller(map["AFR Target" := 0x2000], LoadBaseScalesOnce(p, [AfrBase()], []), None);
            var r := Resolve(p, u, map[], AfrTarget(), None);
            && Built(r)
            && Result(r).variant.ThreeD?
            && Result(r).name == "AFR Target"
            && Result(r).storageAddress == 0x2000
            && Result(r).variant.sizeX == 12 && Result(r).variant.sizeY == 16
            && |Result(r).scales| == 2
            && Result(r).scales[0] == RawScale
            && Result(r).scales[1].name == "AFR" && Result(r).scales[1].unit == "AFR"
            && Result(r).scales[1].expression == "x/10"
            && Result(r).scales[1].max == 0.0 && Result(r).scales[1].min == 0.0
  {
    var p := ConventionalParsers();
    AfrRegistry();
    var u := Unmarshaller(map["AFR Target" := 0x2000], LoadBaseScalesOnce(p, [AfrBase()], []), None);
    AfrMaterialise(u);
    AfrOverlay(u);
    var o := Overlay(p, u, AfrTarget(), Fresh(Table3D).(scales := [RawScale]));
    AfrScaling(u, o);
    var s := Step(p, u, map[], AfrUse(), o);
    var n := AfrTarget();
    assert |n.children| == 1 && n.children[0] == AfrUse();
    var u1 := u.(scales := s.scales);
    assert Walk(p, u1, map[], n, 1, Result(s)) == Resolution(Resolved(Some(Result(s))), s.scales);
    assert Walk(p, u, map[], n, 0, o) == Walk(p, u1, map[], n, 1, Result(s));
    var r := Resolve(p, u, map[], n, None);
    assert Result(r) == Result(s);
    assert Result(s).variant == o.variant;
  }
}

=== FILE: scales.dfy ===
/** Scales and the scale registry: resolving a `scaling` (or `scalingbase`)
    node against a seed scale, inheriting from the last registry entry whose
    name matches the node's `base`, and canonicalising the result by value
    equality against the registry (TableScaleUnmarshaller.unmarshallScale and
    unmarshallBaseScales). */
module Scales {
  import opened Common
  import opened Dom

  /** A conversion between raw stored values and engineering units. The
      double-valued fields are kept as reals and only ever compared for equality. */
  datatype Scale = Scale(
    name: string,
    unit: string,
    expression: string,
    byteExpression: string,
    format: string,
    min: real,
    max: real,
    coarseIncrement: real,
    fineIncrement: real)

  /** A freshly constructed scale: the raw identity conversion. */
  const NewScale := Scale("Default", "0x", "x", "x", "#", 0.0, 0.0, 2.0, 1.0)

  /** The scale a resolution hands back, and the registry after it. */
  datatype ScaleResolution = ScaleResolution(scale: Scale, registry: seq<Scale>)

  predicate NamedLike(s: Scale, base: string)
  {
    EqualsIgnoreCase(s.name, base)
  }

  /** `reg[i]` matches `base` and no later entry does. */
  predicate IsLastNamed(reg: seq<Scale>, base: string, i: int)
  {
    0 <= i < |reg| && NamedLike(reg[i], base) && forall j :: i < j < |reg| ==> !NamedLike(reg[j], base)
  }

  predicate NoneNamed(reg: seq<Scale>, base: string)
  {
    forall j :: 0 <= j < |reg| ==> !NamedLike(reg[j], base)
  }

  /** The loop over the registry looking for the base scale: it has no
      `break`, so every matching entry replaces the current seed. */
  function LastNamed(reg: seq<Scale>, base: string, current: Scale): Scale
    decreases |reg|
  {
    if |reg| == 0 then current
    else LastNamed(reg[1..], base, if NamedLike(reg[0], base) then reg[0] else current)
  }

  /** Without a match the seed survives; otherwise the LAST match wins. */
  lemma {:induction false} LastNamedIsLast(reg: seq<Scale>, base: string, current: Scale)
    ensures NoneNamed(reg, base) ==> LastNamed(reg, base, current) == current
    ensures !NoneNamed(reg, base) ==>
              exists i :: IsLastNamed(reg, base, i) && LastNamed(reg, base, current) == reg[i]
    decreases |reg|
  {
    if |reg| > 0 {
      var next := if NamedLike(reg[0], base) then reg[0] else current;
      LastNamedIsLast(reg[1..], base, next);
      if NoneNamed(reg[1..], base) {
        if NamedLike(reg[0], base) {
          assert IsLastNamed(reg, base, 0);
        } else {
          assert NoneNamed(reg, base);
        }
      } else {
        var i :| IsLastNamed(reg[1..], base, i) && LastNamed(reg[1..], base, next) == reg[1..][i];
        assert IsLastNamed(reg, base, i + 1);
      }
    }
  }

  /** Appending an entry changes the outcome of the search only when the new entry matches. */
  lemma {:induction false} LastNamedAppend(reg: seq<Scale>, x: Scale, base: string, current: Scale)
    ensures LastNamed(reg + [x], base, current)
            == if NamedLike(x, base) then x else LastNamed(reg, base, current)
    decreases |reg|
  {
    if |reg| == 0 {
      assert (reg + [x])[1..] == [];
    } else {
      var next := if NamedLike(reg[0], base) then reg[0] else current;
      assert (reg + [x])[1..] == reg[1..] + [x];
      LastNamedAppend(reg[1..], x, base, next);
    }
  }

  /** The seed the node's attributes are laid over: the last registry entry
      named like the node's `base`, or the given seed when there is no base
      (or it names nothing). */
  function SeedFor(n: Node, seed: Scale, reg: seq<Scale>): Scale
  {
    var base := Attr(n, "base", "none");
    if EqualsIgnoreCase(base, "none") then seed else LastNamed(reg, base, seed)
  }

  /** Lays the node's attributes over a seed scale. Unit, expressions and
      increments fall back to the seed; name, format, max and min fall back
      to fixed defaults instead. The coarse increment reads the current
      attribute name first, then the legacy one. */
  function ApplyScaleAttrs(p: Parsers, n: Node, s: Scale): Scale
  {
    Scale(
      name := Attr(n, "name", "Default"),
      unit := Attr(n, "units", s.unit),
      expression := Attr(n, "expression", s.expression),
      byteExpression := Attr(n, "to_byte", s.byteExpression),
      format := Attr(n, "format", "#"),
      min := AttrReal(p, n, "min", 0.0),
      max := AttrReal(p, n, "max", 0.0),
      coarseIncrement := AttrReal(p, n, "coarseincrement", AttrReal(p, n, "increment", s.coarseIncrement)),
      fineIncrement := AttrReal(p, n, "fineincrement", s.fineIncrement))
  }

  /** Laying the same node over its own result changes nothing. */
  lemma ApplyScaleAttrsIdempotent(p: Parsers, n: Node, s: Scale)
    ensures ApplyScaleAttrs(p, n, ApplyScaleAttrs(p, n, s)) == ApplyScaleAttrs(p, n, s)
  {
  }

  /** Index of the first registry entry value-equal to `s`. */
  function FirstEqual(reg: seq<Scale>, s: Scale): (r: Option<nat>)
    ensures r.None? <==> s !in reg
    ensures r.Some? ==> r.value < |reg| && reg[r.value] == s
    ensures r.Some? ==> forall j :: 0 <= j < r.value ==> reg[j] != s
    decreases |reg|
  {
    if |reg| == 0 then None
    else if reg[0] == s then Some(0)
    else match FirstEqual(reg[1..], s)
      case None => None
      case Some(i) => Some(i + 1)
  }

  /** unmarshallScale: seed, overlay, then return the registry's equal entry
      or append the new scale. The result is always a registry member. */
  function ResolveScale(p: Parsers, n: Node, seed: Scale, reg: seq<Scale>): (r: ScaleResolution)
    ensures r.scale == ApplyScaleAttrs(p, n, SeedFor(n, seed, reg))
    ensures r.scale in r.registry
    ensures r.scale in reg <==> r.registry == reg
    ensures r.scale !in reg ==> r.registry == reg + [r.scale]
    ensures NoDuplicates(reg) ==> NoDuplicates(r.registry)
  {
    var s := ApplyScaleAttrs(p, n, SeedFor(n, seed, reg));
    match FirstEqual(reg, s)
    case Some(i) => ScaleResolution(reg[i], reg)
    case None => ScaleResolution(s, reg + [s])
  }

  /** Resolving the same node with the same seed a second time returns the
      same scale and leaves the registry as the first resolution left it. */
  lemma ResolveScaleIdempotent(p: Parsers, n: Node, seed: Scale, reg: seq<Scale>)
    ensures ResolveScale(p, n, seed, ResolveScale(p, n, seed, reg).registry)
            == ResolveScale(p, n, seed, reg)
  {
    var r1 := ResolveScale(p, n, seed, reg);
    var base := Attr(n, "base", "none");
    if r1.registry != reg && !EqualsIgnoreCase(base, "none") {
      LastNamedAppend(reg, r1.scale, base, seed);
      ApplyScaleAttrsIdempotent(p, n, SeedFor(n, seed, reg));
    }
  }

  /** Name, format, max and min are never inherited: whatever the seed and
      the registry, two resolutions of one node agree on them. */
  lemma ScaleFixedFields(p: Parsers, n: Node, seed1: Scale, reg1: seq<Scale>, seed2: Scale, reg2: seq<Scale>)
    ensures var a, b := ResolveScale(p, n, seed1, reg1).scale, ResolveScale(p, n, seed2, reg2).scale;
            a.name == b.name && a.format == b.format && a.max == b.max && a.min == b.min
  {
  }

  /** Every attribute the node leaves out has the value it has in `from`. */
  predicate InheritsUnstated(n: Node, s: Scale, from: Scale)
  {
    && ("units" !in n.attrs ==> s.unit == from.unit)
    && ("expression" !in n.attrs ==> s.expression == from.expression)
    && ("to_byte" !in n.attrs ==> s.byteExpression == from.byteExpression)
    && ("coarseincrement" !in n.attrs && "increment" !in n.attrs ==> s.coarseIncrement == from.coarseIncrement)
    && ("fineincrement" !in n.attrs ==> s.fineIncrement == from.fineIncrement)
  }

  /** With a `base` that names registry entries, every attribute the node
      leaves out is taken from the last such entry. */
  lemma ScaleInheritsFromLastBase(p: Parsers, n: Node, seed: Scale, reg: seq<Scale>)
    requires "base" in n.attrs && !EqualsIgnoreCase(n.attrs["base"], "none")
    requires !NoneNamed(reg, n.attrs["base"])
    ensures exists i :: IsLastNamed(reg, n.attrs["base"], i) &&
              InheritsUnstated(n, ResolveScale(p, n, seed, reg).scale, reg[i])
  {
    LastNamedIsLast(reg, n.attrs["base"], seed);
  }

  /** No base, or a base name no registry entry carries (not an error):
      the seed is used as is. */
  lemma UnresolvedBaseKeepsSeed(p: Parsers, n: Node, seed: Scale, reg: seq<Scale>)
    requires EqualsIgnoreCase(Attr(n, "base", "none"), "none") || NoneNamed(reg, Attr(n, "base", "none"))
    ensures ResolveScale(p, n, seed, reg).scale == ApplyScaleAttrs(p, n, seed)
  {
    LastNamedIsLast(reg, Attr(n, "base", "none"), seed);
  }

  /** unmarshallBaseScales over the children of the definition root: each
      `scalingbase` element is resolved from a fresh scale, and the result
      is added to the registry AGAIN after the resolution itself has
      canonicalised it. */
  function LoadBaseScales(p: Parsers, kids: seq<Node>, reg: seq<Scale>): (r: seq<Scale>)
    ensures reg <= r
    ensures |r| <= |reg| + 2 * |kids|
    ensures forall k :: 0 <= k < |kids| && FreshBase(kids[k]) ==> ApplyScaleAttrs(p, kids[k], NewScale) in r
    ensures forall k :: 0 <= k < |kids| && IsElementNamed(kids[k], "scalingbase") ==> Registered(p, kids[k], r)
    ensures forall s :: s in r ==> s in reg || LoadedFrom(p, kids, s)
    decreases |kids|
  {
    if |kids| == 0 then reg
    else
      var next :=
        if IsElementNamed(kids[0], "scalingbase") then
          var res := ResolveScale(p, kids[0], NewScale, reg);
          res.registry + [res.scale]
        else reg;
      var r := LoadBaseScales(p, kids[1..], next);
      LoadStep(p, kids, reg, next, r);
      r
  }

  /** A `scalingbase` element that names no base scale. */
  predicate FreshBase(n: Node)
  {
    IsElementNamed(n, "scalingbase") && EqualsIgnoreCase(Attr(n, "base", "none"), "none")
  }

  /** `s` carries every attribute node `n` states: laying `n` over it changes nothing. */
  predicate Describes(p: Parsers, n: Node, s: Scale)
  {
    ApplyScaleAttrs(p, n, s) == s
  }

  /** Some registry entry carries every attribute `n` states. */
  predicate Registered(p: Parsers, n: Node, r: seq<Scale>)
  {
    exists s :: s in r && Describes(p, n, s)
  }

  /** `s` is the resolution of one of the `scalingbase` elements among `kids`. */
  predicate LoadedFrom(p: Parsers, kids: seq<Node>, s: Scale)
  {
    exists k :: 0 <= k < |kids| && IsElementNamed(kids[k], "scalingbase") && Describes(p, kids[k], s)
  }

  /** One loading step, shared by both loaders: if `next` is `reg` plus the
      resolution of the first child (when it is a `scalingbase`), and `r`
      has the loader contract for the remaining children from `next`, then
      `r` has it for all children from `reg`. */
  lemma LoadStep(p: Parsers, kids: seq<Node>, reg: seq<Scale>, next: seq<Scale>, r: seq<Scale>)
    requires |kids| > 0
    requires !IsElementNamed(kids[0], "scalingbase") ==> next == reg
    requires IsElementNamed(kids[0], "scalingbase") ==>
               var res := ResolveScale(p, kids[0], NewScale, reg);
               res.scale in next && forall s :: s in next ==> s in reg || s == res.scale
    requires next <= r
    requires forall k :: 0 <= k < |kids[1..]| && FreshBase(kids[1..][k]) ==> ApplyScaleAttrs(p, kids[1..][k], NewScale) in r
    requires forall s :: s in r ==> s in next || LoadedFrom(p, kids[1..], s)
    requires forall k :: 0 <= k < |kids[1..]| && IsElementNamed(kids[1..][k], "scalingbase") ==> Registered(p, kids[1..][k], r)
    ensures forall k :: 0 <= k < |kids| && FreshBase(kids[k]) ==> ApplyScaleAttrs(p, kids[k], NewScale) in r
    ensures forall k :: 0 <= k < |kids| && IsElementNamed(kids[k], "scalingbase") ==> Registered(p, kids[k], r)
    ensures forall s :: s in r ==> s in reg || LoadedFrom(p, kids, s)
  {
    forall k | 1 <= k < |kids|
      ensures kids[k] == kids[1..][k - 1]
    {
    }
    if IsElementNamed(kids[0], "scalingbase") {
      var res := ResolveScale(p, kids[0], NewScale, reg);
      ApplyScaleAttrsIdempotent(p, kids[0], SeedFor(kids[0], NewScale, reg));
      assert Describes(p, kids[0], res.scale);
      assert res.scale in r;
    }
    forall s | s in r && s !in reg
      ensures LoadedFrom(p, kids, s)
    {
      if !(s in next) {
        var k :| 0 <= k < |kids[1..]| && IsElementNamed(kids[1..][k], "scalingbase") && Describes(p, kids[1..][k], s);
        assert kids[k + 1] == kids[1..][k];
      }
    }
  }

  predicate NoDuplicates(reg: seq<Scale>)
  {
    forall i, j :: 0 <= i < j < |reg| ==> reg[i] != reg[j]
  }

  /** As written, one new `scalingbase` leaves two copies of its scale in
      the registry, so a duplicate-free registry stops being one. */
  lemma NewBaseScaleListedTwice(p: Parsers, b: Node, reg: seq<Scale>)
    requires IsElementNamed(b, "scalingbase")
    requires ResolveScale(p, b, NewScale, reg).scale !in reg
    ensures var s := ResolveScale(p, b, NewScale, reg).scale;
            LoadBaseScales(p, [b], reg) == reg + [s, s]
    ensures !NoDuplicates(LoadBaseScales(p, [b], reg))
  {
    var s := ResolveScale(p, b, NewScale, reg).scale;
    var r := LoadBaseScales(p, [b], reg);
    assert [b][1..] == [];
    assert r == reg + [s, s];
    assert r[|reg|] == r[|reg| + 1];
  }

  /** The evidently intended unmarshallBaseScales: the registry entry added
      by the resolution is the only one. */
  function LoadBaseScalesOnce(p: Parsers, kids: seq<Node>, reg: seq<Scale>): (r: seq<Scale>)
    ensures reg <= r
    ensures |r| <= |reg| + |kids|
    ensures NoDuplicates(reg) ==> NoDuplicates(r)
    ensures forall k :: 0 <= k < |kids| && FreshBase(kids[k]) ==> ApplyScaleAttrs(p, kids[k], NewScale) in r
    ensures forall k :: 0 <= k < |kids| && IsElementNamed(kids[k], "scalingbase") ==> Registered(p, kids[k], r)
    ensures forall s :: s in r ==> s in reg || LoadedFrom(p, kids, s)
    decreases |kids|
  {
    if |kids| == 0 then reg
    else
      var next := if IsElementNamed(kids[0], "scalingbase") then ResolveScale(p, kids[0], NewScale, reg).registry else reg;
      assert NoDuplicates(reg) ==> NoDuplicates(next);
      var r := LoadBaseScalesOnce(p, kids[1..], next);
      LoadStep(p, kids, reg, next, r);
      r
  }

  /** Both versions resolve the same scales: every scale the as-written
      loader adds is one the corrected loader adds as well, and back. */
  lemma {:induction false} LoadersAgreeOnMembers(p: Parsers, kids: seq<Node>, reg: seq<Scale>)
    requires forall k :: 0 <= k < |kids| ==> !IsElementNamed(kids[k], "scalingbase") || FreshBase(kids[k])
    ensures forall s :: s in LoadBaseScales(p, kids, reg) <==> s in LoadBaseScalesOnce(p, kids, reg)
    decreases |kids|
  {
    if |kids| > 0 {
      LoadersAgreeOnMembersStep(p, kids, reg, reg);
    }
  }

  /** Generalised form: two registries with the same members stay that way. */
  lemma {:induction false} LoadersAgreeOnMembersStep(p: Parsers, kids: seq<Node>, dup: seq<Scale>, once: seq<Scale>)
    requires forall k :: 0 <= k < |kids| ==> !IsElementNamed(kids[k], "scalingbase") || FreshBase(kids[k])
    requires forall s :: s in dup <==> s in once
    ensures forall s :: s in LoadBaseScales(p, kids, dup) <==> s in LoadBaseScalesOnce(p, kids, once)
    decreases |kids|
  {
    if |kids| > 0 {
      var k := kids[0];
      var nextDup := if IsElementNamed(k, "scalingbase") then (var res := ResolveScale(p, k, NewScale, dup); res.registry + [res.scale]) else dup;
      var nextOnce := if IsElementNamed(k, "scalingbase") then ResolveScale(p, k, NewScale, once).registry else once;
      if IsElementNamed(k, "scalingbase") {
        assert SeedFor(k, NewScale, dup) == NewScale == SeedFor(k, NewScale, once);
        var a := ResolveScale(p, k, NewScale, dup);
        var b := ResolveScale(p, k, NewScale, once);
        assert a.scale == b.scale;
      }
      assert forall s :: s in nextDup <==> s in nextOnce;
      assert forall j :: 0 <= j < |kids[1..]| ==> kids[1..][j] == kids[j + 1];
      LoadersAgreeOnMembersStep(p, kids[1..], nextDup, nextOnce);
    }
  }

  /** A `scalingbase` and a `scaling` that names it as its base: unit and
      expression are inherited, but max and min are not; they fall back to 0. */
  lemma BaseScalingResetsLimits(p: Parsers)
    ensures var afr := Node(true, "scalingbase", map["name" := "AFR", "units" := "AFR", "expression" := "x/10",
                                                     "max" := "20", "min" := "7"], "", []);
            var reg := LoadBaseScales(p, [afr], []);
            var use := Node(true, "scaling", map["name" := "AFR", "base" := "AFR"], "", []);
            var s := ResolveScale(p, use, NewScale, reg).scale;
            s.name == "AFR" && s.unit == "AFR" && s.expression == "x/10" && s.max == 0.0 && s.min == 0.0
  {
    var afr := Node(true, "scalingbase", map["name" := "AFR", "units" := "AFR", "expression" := "x/10",
                                             "max" := "20", "min" := "7"], "", []);
    assert IsElementNamed(afr, "scalingbase");
    var b := ResolveScale(p, afr, NewScale, []).scale;
    var reg := LoadBaseScales(p, [afr], []);
    assert [afr][1..] == [];
    assert reg == [b, b];
    assert b.unit == "AFR" && b.expression == "x/10" && b.name == "AFR";
    var use := Node(true, "scaling", map["name" := "AFR", "base" := "AFR"], "", []);
    assert !EqualsIgnoreCase("AFR", "none") by {
      assert |Lower("AFR")| != |Lower("none")|;
    }
    EqualsIgnoreCaseIsEquivalence("AFR", "AFR", "AFR");
    assert NamedLike(b, "AFR");
    assert reg[1..] == [b] && [b][1..] == [];
    assert LastNamed([b], "AFR", b) == LastNamed([], "AFR", b) == b;
    assert LastNamed(reg, "AFR", NewScale) == LastNamed([b], "AFR", b);
  }
}

=== FILE: tables.dfy ===
/** The table variants a definition resolves into, and the few Table
    operations the resolver calls on them: the attached scale list (look up
    by name, add-or-replace by name), named values and static data cells. */
module Tables {
  import opened Common
  import opened Dom
  import opened Scales

  /** The role a linear (Table1D) table plays: a plain 1D table or an axis. */
  datatype Role = Plain | XRole | YRole

  /** The variant-specific part of a table. Axes are linear tables held by value. */
  datatype Variant =
    | Linear(role: Role, cells: seq<string>)
    | TwoD(axis: Table)
    | ThreeD(xAxis: Table, yAxis: Table, swapXY: bool, flipX: bool, flipY: bool, sizeX: int, sizeY: int)
    | SwitchTable
    | BitwiseSwitchTable

  /** A table definition: identity, storage layout, flags, attached scales,
      the named values of switch tables, and the variant-specific part. */
  datatype Table = Table(
    name: string,
    category: string,
    description: string,
    storageAddress: int,
    storageType: int,
    signedData: bool,
    endian: Endian,
    memModelEndian: Option<Endian>,
    dataSize: int,
    flip: bool,
    beforeRam: bool,
    locked: bool,
    userLevel: int,
    logParam: string,
    stringMask: string,
    dataLayout: string,
    scales: seq<Scale>,
    values: seq<(string, string)>,
    variant: Variant)

  /** Table.getType. */
  function TypeOf(t: Table): TableType
  {
    match t.variant
    case Linear(role, _) => (match role case Plain => Table1D case XRole => XAxis case YRole => YAxis)
    case TwoD(_) => Table2D
    case ThreeD(_, _, _, _, _, _, _) => Table3D
    case SwitchTable => Switch
    case BitwiseSwitchTable => BitwiseSwitch
  }

  /** Field values of a freshly constructed table. */
  function Blank(v: Variant): Table
  {
    Table("", "", "", 0, 0, false, Big, None, 0, false, false, false, 0, "", "0", "", [], [], v)
  }

  /** The constructor of each table kind; 2D and 3D tables own fresh axes. */
  function Fresh(kind: TableType): (t: Table)
    ensures TypeOf(t) == kind
    ensures t.scales == []
  {
    match kind
    case Table1D => Blank(Linear(Plain, []))
    case XAxis => Blank(Linear(XRole, []))
    case YAxis => Blank(Linear(YRole, []))
    case Table2D => Blank(TwoD(Blank(Linear(YRole, []))))
    case Table3D => Blank(ThreeD(Blank(Linear(XRole, [])), Blank(Linear(YRole, [])), false, false, false, 0, 0))
    case Switch => Blank(SwitchTable)
    case BitwiseSwitch => Blank(BitwiseSwitchTable)
  }

  /** The first scale in `ss` named like `name`, if any. */
  function FirstNamed(ss: seq<Scale>, name: string): (r: Option<Scale>)
    ensures r.None? ==> NoneNamed(ss, name)
    ensures r.Some? ==> exists i :: 0 <= i < |ss| && ss[i] == r.value && NamedLike(ss[i], name)
                                    && NoneNamed(ss[..i], name)
    decreases |ss|
  {
    if |ss| == 0 then None
    else if NamedLike(ss[0], name) then Some(ss[0])
    else
      var r := FirstNamed(ss[1..], name);
      assert r.Some? ==> exists i :: 0 <= i < |ss[1..]| && ss[1..][i] == r.value && NamedLike(ss[1..][i], name)
                                      && NoneNamed(ss[1..][..i], name);
      assert r.Some? ==> exists i :: 0 <= i < |ss| && ss[i] == r.value && NamedLike(ss[i], name)
                                      && NoneNamed(ss[..i], name) by {
        if r.Some? {
          var i :| 0 <= i < |ss[1..]| && ss[1..][i] == r.value && NamedLike(ss[1..][i], name)
                   && NoneNamed(ss[1..][..i], name);
          assert ss[..i + 1] == [ss[0]] + ss[1..][..i];
        }
      }
      r
  }

  /** Table.getScale: the attached scale named like `name`, or a fresh scale. */
  function GetScale(t: Table, name: string): Scale
  {
    match FirstNamed(t.scales, name)
    case Some(s) => s
    case None => NewScale
  }

  /** `ss` without the scales named like `name`, order kept. */
  function WithoutNamed(ss: seq<Scale>, name: string): (r: seq<Scale>)
    ensures NoneNamed(r, name)
    ensures forall x :: x in r <==> x in ss && !NamedLike(x, name)
    ensures |r| <= |ss|
    decreases |ss|
  {
    if |ss| == 0 then []
    else if NamedLike(ss[0], name) then WithoutNamed(ss[1..], name)
    else [ss[0]] + WithoutNamed(ss[1..], name)
  }

  /** Table.addScale: replaces any attached scale of the same name (ignoring case), else adds. */
  function AddScale(t: Table, s: Scale): (r: Table)
    ensures r == t.(scales := r.scales)
    ensures forall x :: x in r.scales <==> x == s || (x in t.scales && !NamedLike(x, s.name))
    ensures |r.scales| <= |t.scales| + 1
  {
    t.(scales := WithoutNamed(t.scales, s.name) + [s])
  }

  /** No two attached scales share a name, ignoring case. */
  predicate DistinctNames(ss: seq<Scale>)
  {
    forall i, j :: 0 <= i < j < |ss| ==> !EqualsIgnoreCase(ss[i].name, ss[j].name)
  }

  /** Adding keeps scale names distinct, and looking the name up afterwards finds the added scale. */
  lemma AddThenGetScale(t: Table, s: Scale)
    ensures DistinctNames(t.scales) ==> DistinctNames(AddScale(t, s).scales)
    ensures GetScale(AddScale(t, s), s.name) == s
  {
    var kept := WithoutNamed(t.scales, s.name);
    var ss := kept + [s];
    EqualsIgnoreCaseIsEquivalence(s.name, s.name, s.name);
    if DistinctNames(t.scales) {
      WithoutNamedDistinct(t.scales, s.name);
      forall i, j | 0 <= i < j < |ss|
        ensures !EqualsIgnoreCase(ss[i].name, ss[j].name)
      {
        if j == |ss| - 1 {
          assert ss[i] in kept;
          assert !NamedLike(ss[i], s.name);
          EqualsIgnoreCaseIsEquivalence(ss[i].name, s.name, s.name);
        } else {
          assert ss[i] == kept[i] && ss[j] == kept[j];
        }
      }
    }
    FirstNamedAfterNone(kept, s);
  }

  lemma {:induction false} WithoutNamedDistinct(ss: seq<Scale>, name: string)
    requires DistinctNames(ss)
    ensures DistinctNames(WithoutNamed(ss, name))
    decreases |ss|
  {
    if |ss| > 0 {
      assert DistinctNames(ss[1..]) by {
        forall i, j | 0 <= i < j < |ss[1..]|
          ensures !EqualsIgnoreCase(ss[1..][i].name, ss[1..][j].name)
        {
          assert ss[1..][i] == ss[i + 1] && ss[1..][j] == ss[j + 1];
        }
      }
      WithoutNamedDistinct(ss[1..], name);
      if !NamedLike(ss[0], name) {
        var rest := WithoutNamed(ss[1..], name);
        var r := [ss[0]] + rest;
        forall i, j | 0 <= i < j < |r|
          ensures !EqualsIgnoreCase(r[i].name, r[j].name)
        {
          if i == 0 {
            assert r[j] in rest;
            var k :| 0 <= k < |ss[1..]| && ss[1..][k] == r[j];
            assert ss[k + 1] == r[j];
          } else {
            assert r[i] == rest[i - 1] && r[j] == rest[j - 1];
          }
        }
      }
    }
  }

  lemma FirstNamedAfterNone(kept: seq<Scale>, s: Scale)
    requires NoneNamed(kept, s.name)
    ensures FirstNamed(kept + [s], s.name) == Some(s)
  {
    EqualsIgnoreCaseIsEquivalence(s.name, s.name, s.name);
    var r := FirstNamed(kept + [s], s.name);
    assert !NoneNamed(kept + [s], s.name) by {
      assert (kept + [s])[|kept|] == s;
    }
    if r.Some? {
      var i :| 0 <= i < |kept + [s]| && (kept + [s])[i] == r.value && NamedLike((kept + [s])[i], s.name);
    }
  }

  /** Table.setValues: records a (name, value) pair for a switch state or bit. */
  function SetValues(t: Table, name: string, value: string): Table
  {
    t.(values := t.values + [(name, value)])
  }
}
